=== FILE: README.md ===
# pytoolbox core in Dafny

This project models four pure pieces of the pytoolbox command-line tools:

- The column layout engine of the `column` command (`Table` in
  `command/column.py`). It is a ragged, column-major grid of opaque items
  with a declared row count. Python mutates it in place; here each
  operation is a function that returns the new state.
  - The state is `Table<T>(columns: seq<seq<T>>, rows: int)`.
  - The central invariant is `Flatten`, the column-major order of the items.
- `multifind` and `multisplit` (`command/utils/string.py`): finding the
  leftmost occurrence of any string of a set, and cutting a string at
  successive occurrences.
- `parse_time_decimal` (`command/touch.py`): the
  `[[CC]YY]MMDDhhmm[.SS]` operand of `touch -t`, described in POSIX.1-2017,
  XCU `touch`. It is modelled as a pure function to a calendar tuple, with
  the current year passed in as a parameter.
- `parse_n` (`command/tail.py`): the signed count of `tail`.

Files:

- `maybe.dfy`: `Option`. `None` stands for a Python exception or for a
  search that finds nothing.
- `decimal.dfy`: Python `int()` on sign-and-digit text.
- `grid.dfy`: flattening and column-length predicates.
- `table.dfy`: the `Table` operations.
- `layout.dfy`: `create_column_first`.
- `multisplit.dfy`, `touch.dfy`, `tail.dfy`: the other three pieces.

Where the code and its documented intent part ways, the model follows the
code:

- **Row views stop early.** `RowIter` stops at the first column too short to
  reach the row; it does not skip that column and carry on.
  `ShapedRowSkips` shows that the two readings agree on every table that
  `create_column_first` builds.
- **Compression is the corrected loop.** `add_row`, and so
  `create_column_first`, is built on the corrected `_compress_columns`
  (see "## Findings"): ColumnTable.AddRow, ColumnLayout.AddRowsWhile,
  ColumnLayout.Place, ColumnLayout.Fill and ColumnLayout.ColumnFirst all
  use ColumnTable.Compress. With the loop as written, `create_column_first`
  raises `IndexError` whenever its `while` guard holds with more than one
  column (ColumnLayout.AddRowsWhileAsWritten), for example on the third
  item of `Table.create_column_first(["a", "b", "c"], 2)`.
- **The overflow test is not redone.** In `create_column_first`,
  `new_row_size` is computed once, before the `while` loop. With corrected
  compression, once the guard holds with more than one column, rows are
  added until a single column is left. The width of earlier rows is never
  checked again, although the comment above the loop says rows are added
  "until we fit". AddRowsWhile and Place state this collapse; a loop that
  re-measures is not modelled.
- **The table is returned.** `create_column_first` has no `return`
  statement. The model returns the table it builds.
- **Each table is fresh.** The constructor's default `[[]]` is a shared,
  mutable list in Python. Here every table is a fresh value.

## Model

| member | source | states |
|---|---|---|
| ColumnTable.MaxLen | command/column.py:116 | the result bounds every column's length and is the length of some column (0 for no columns) |
| ColumnTable.New | command/column.py:114-116 | the row count is at least 1, bounds every column, and is either 1 or the length of some column |
| ColumnTable.Empty | command/column.py:114-116 | the default table has one empty column, one row and no items |
| ColumnTable.Take | command/column.py:118-128 | returns exactly `min(n, items from start on)` items (none when `n <= 0` or `start` is past the end); the old column-major order from `start` is the returned items followed by what remains; columns before `start` are untouched; a remaining column at `start` is a suffix of the column it came from and is empty only if that column was empty; a column left whole after deletions follows a deleted column that held items, and when exactly `n` items took every column from `start` on, the last of them held items, so an empty column past the stopping point is kept; with `n <= 0` nothing changes; if fewer than `n` items were taken, every column from `start` on is gone |
| ColumnTable.ConsumedBounds | command/column.py:121-126 | after `_take`, columns before `start` are unchanged, and no column from `start` on is longer, or newly empty, than before |
| ColumnTable.TakeExampleAcrossColumns | tests/test_column_table.py:9 | for any six items, taking 3 from column 1 of `[[a,b],[c,d],[e],[f]]` gives `[c,d,e]` and leaves `[[a,b],[f]]` |
| ColumnTable.TakeKeepsUnvisitedEmptyColumn | command/column.py:121-126 | taking one item from `[[a], [], [b]]` cannot also delete the empty middle column, which the loop never reaches |
| ColumnTable.TakeKeepsTrailingEmptyColumn | command/column.py:121-126 | taking one item from `[[a], []]` cannot also delete the trailing empty column, which the loop never reaches once it has its item |
| ColumnTable.TakeExampleLastColumn | tests/test_column_table.py:10 | taking the only item of `[[a]]` returns it and leaves no column at all |
| ColumnTable.CompressFrom | command/column.py:131-133 | the pass from column `i` on keeps the column-major order and the first `i` columns; with no column over `R`, every column it fills except the last ends with exactly `R` items; no empty column is introduced |
| ColumnTable.Compress | command/column.py:130-133 | `_compress_columns(R)` keeps the column-major order, never adds columns and keeps at least one; if no column holds more than `R` items, none does afterwards and every column but the last holds exactly `R`; no column after the first is empty if none was before |
| ColumnTable.CompressAsWrittenFails | command/column.py:131 | the loop over a fixed `range(col_num)` gives the same columns as the live loop when no column is deleted, and raises `IndexError` exactly when one is |
| ColumnTable.CompressCounterexample | tests/test_column_table.py:19 | for any four items, `[[a],[b],[c],[d]]` compressed to 2 rows is `[[a,b],[c,d]]` with the live loop, and an `IndexError` as written |
| ColumnTable.Append | command/column.py:147-153 | the item goes to the end of the column-major order; when the last column holds `rows` items, the item alone opens a new column after the old ones; otherwise the item goes at the end of the last column and the other columns are unchanged; the table invariant is kept |
| ColumnTable.AddRow | command/column.py:155-162 | with the corrected compression: one more row; the column-major order is kept; without compression the columns are untouched; with it, every column but the last is full and no column after the first becomes empty |
| ColumnTable.RowFrom | command/column.py:100-109 | reading from column `n` yields item `index` of each column in turn, up to the first column too short to have one |
| ColumnTable.Row | command/column.py:90-112 | the row view holds `columns[c][index]` for the leading columns that reach `index`, and the next column, if any, does not reach it |
| ColumnTable.RowStopsWhereSkipping | command/column.py:100-109 | when column lengths never grow from left to right, stopping at the first short column reads the same row as skipping every short column |
| ColumnLayout.ShapedColumnsVersusCount | command/column.py:179 | in a table built column-first, there is more than one column exactly when there are more items than rows |
| ColumnLayout.ShapedRowSkips | command/column.py:172 | in a table built column-first, the row view holds every item at that row index |
| ColumnLayout.ShapedRowsShowEveryItem | command/column.py:143-145 | in a table built column-first, `rows` shows every item: item `i` of column `c` is entry `c` of row view `i` |
| ColumnLayout.UnshapedRowHidesItem | command/column.py:100-109 | on a table whose second column is longer than its first, the row view at index 1 is empty, so `rows` hides an item |
| ColumnLayout.AddRowsWhile | command/column.py:179-180 | with the corrected compression, the `while` loop keeps the items and the table's shape; if its guard holds with more than one column, it ends with a single column holding every item, with as many rows as items; otherwise it changes nothing |
| ColumnLayout.AddRowAsWrittenFails | command/column.py:131-133 | `add_row()` over the compression loop as written raises exactly when the corrected compression deletes a column, and otherwise gives the corrected result |
| ColumnLayout.AddRowsWhileAsWritten | command/column.py:179-180 | with the compression loop as written, the `while` loop raises whenever its guard holds with more than one column, and otherwise leaves the table as it is |
| ColumnLayout.Place | command/column.py:172-182 | one turn of the `for` loop appends the item to the column-major order and keeps the shape; if the last row plus the item is too wide and there are several columns, the old items collapse into one column and the item starts a second; otherwise it is a plain append |
| ColumnLayout.Fill | command/column.py:171-182 | the `for` loop appends the items in input order and keeps the shape; the row count never shrinks, and never exceeds the larger of its starting value and the total item count |
| ColumnLayout.ColumnFirst | command/column.py:164-182 | `create_column_first` lays out exactly the input items in column-major order, with at least one and at most `max(1, n)` rows; all columns but the last are full, and only a lone first column can be empty; empty input gives the default table |
| MultiSplit.ShortestAt | command/utils/string.py:6-11 | the scan at one position returns the shortest item length whose slice there is an item, or none if no length does |
| MultiSplit.MultiFind | command/utils/string.py:4-13 | returns the leftmost position at or after `start` where an item occurs, with the end of the shortest item there; `(len(s), len(s))` when no item occurs from `start` on |
| MultiSplit.ClampedSliceAlreadyTried | command/utils/string.py:7-10 | when lengths are tried in increasing order, a clamped slice running past the end of `s` was already tried at its true length, so the end returned never passes `len(s)` |
| MultiSplit.Split | command/utils/string.py:20-30 | the loop emits at most `max_split` pieces (none when it is 0), and no empty piece when filtering |
| MultiSplit.MultiSplitOf | command/utils/string.py:16-32 | `multisplit` respects a positive `max_split`, and emits no empty piece when `filter_empty` is set |
| MultiSplit.SplitIsLeftmostCut | command/utils/string.py:19-30 | the unlimited, unfiltered pieces are the text between successive leftmost, shortest delimiter occurrences |
| MultiSplit.ShortestSeparatorUnique | command/utils/string.py:9-11 | at a given position, at most one item can be the shortest one that occurs there |
| MultiSplit.LeftmostCutUnique | command/utils/string.py:19-30 | a string has only one cut into pieces at leftmost, shortest delimiters |
| MultiSplit.LeftmostCutRejoins | command/utils/string.py:19-30 | interleaving the pieces of such a cut with its delimiters gives back the string |
| MultiSplit.SepsAreDelims | command/utils/string.py:21-30 | every separator of such a cut is one of the delimiters |
| MultiSplit.UnfilteredSplitRejoins | command/utils/string.py:16-32 | with `filter_empty` false and no limit, interleaving the pieces with the matched delimiters reconstructs `s` |
| MultiSplit.FilteredDropsEmptyPieces | command/utils/string.py:23-25 | with no limit, the filtered pieces are exactly the unfiltered pieces minus the empty ones |
| MultiSplit.LimitTakesPrefix | command/utils/string.py:20-25 | `max_split = k > 0` yields the first `k` pieces of the unlimited split |
| Decimal.ValueConcat | command/touch.py:35-38 | reading digits left to right: the digits of a prefix are worth `10^k` times more when `k` digits follow them |
| Decimal.ValueBound | command/touch.py:35-38 | `k` digits always denote a number below `10^k` |
| Decimal.LeadingZero | command/touch.py:35-38 | a leading zero does not change the number `int()` reads |
| Decimal.DecimalTextRoundTrip | command/tail.py:9 | `int()` reads back every non-negative number from its decimal digits, and every negative one from `-` and its digits |
| Touch.FirstDot | command/touch.py:12-13 | the position of the first `.`, or the length when there is none |
| Touch.Slice | command/touch.py:35-38 | Python's clamped slice: the true slice when in range; the rest of the text from `i` when `i` is inside it but `j` is past the end; empty otherwise |
| Touch.ParseTime | command/touch.py:6-39 | a date part shorter than 7 characters fails; without a `.` the seconds are 0; with one they are `int()` of the text after the first `.` |
| Touch.YearAndRestOfDigits | command/touch.py:15-21 | a well-formed date part leaves its last eight characters for the clock fields |
| Touch.FieldsFromLastEight | command/touch.py:34-38 | a well-formed operand parses, and month, day, hour and minute are the four two-digit fields of the last eight date characters |
| Touch.YearOfDigits | command/touch.py:15-29 | the year is `CC*100 + YY` for a nonzero century, and otherwise `YY` plus the implied century |
| Touch.ExplicitCentury | command/touch.py:15-17 | a 12-digit date part with a nonzero century gives `CC*100 + YY` |
| Touch.ImpliedCenturyPivot | command/touch.py:19-29 | without a century, or with `00`, `YY` in 69..99 gives 19YY and `YY` in 00..68 gives 20YY |
| Touch.MissingYearIsCurrent | command/touch.py:31-32 | a date part without a year, or one whose computed year is 0, takes the current year |
| Touch.ExampleNoYear | tests/test_touch.py:8 | `04200420` is April 20, 04:20 of the current year |
| Touch.ExampleSeconds | tests/test_touch.py:9 | `10111213.14` is October 11, 12:13:14 of the current year |
| Touch.ExamplePivot1900 | tests/test_touch.py:10 | `9709091234` is 1997-09-09 12:34 |
| Touch.ExamplePivot2000 | tests/test_touch.py:13 | `1501020420.20` is 2015-01-02 04:20:20 |
| Touch.ExampleCentury | tests/test_touch.py:15 | `240103211234.20` is 2401-03-21 12:34:20 |
| Touch.SecondsTextRejected | command/touch.py:12-13 | as written, every operand with a `.` fails, because the seconds reach `datetime` as text; without a `.` the code as written agrees with the corrected parser |
| Touch.SecondsCounterexample | tests/test_touch.py:9 | `10111213.14` fails as written and gives 12:13:14 when corrected |
| Tail.ParseCount | command/tail.py:7-12 | `+k` gives `k`; `-k` and a bare `k` give `-k`; empty text fails |
| Tail.MinusSameAsBare | command/tail.py:10-12 | `-k` and `k` mean the same count, and `+k` is its negation |
| Tail.MagnitudeIsDigitValue | command/tail.py:7-12 | whatever the sign, the result is defined, its absolute value is the value of the digits, and it is non-negative exactly for `+` or zero |

## Left out

- The argparse set-up, option defaults, terminal-size lookup and output of `column`. The same goes for the file reading of `tail` and `touch`'s command entry point: all of these are I/O.
- `length_function` is a parameter `T -> nat`. Its default, Python `len`, is not modelled, because items are opaque.
- `RowIter`'s iterator protocol (`__iter__` restarting, `__len__`) is not modelled. The row view is the finite sequence it yields, and `__len__` is that sequence's length. `rows` is a sequence of these views rather than a tuple of iterators.
- ColumnTable.Take: `start` is a natural number. Python's negative indexing for a negative `start` is not modelled; no caller passes one.
- ColumnTable.Append: requires at least one column. With none, the source raises `IndexError` at `self.columns[-1]`, and that error is not modelled. `create_column_first` never reaches that state, since every table it builds has a column.
- MultiSplit.MultiFind: Python walks the set of item lengths in the set's hash order. The model walks them in increasing order. In CPython a small integer hashes to itself, but it lands in slot `hash % table_size`, so the order is increasing only while every length is below the set's table size (8 for a small set). With lengths `{2, 8}`, 8 lands in slot 0 and is tried first: `multifind("xab", {"ab", "abcdefgh"})` matches the clamped slice `"ab"` as length 8 and returns `(1, 9)`, an end past `len(s)`; `multisplit` then yields `["x", ""]` even with `filter_empty`. The model never returns such an end, and the no-empty-piece promise of MultiSplit.Split and MultiSplit.MultiSplitOf holds only for the increasing order. With every delimiter of one length the two orders agree. When items of several lengths match at the leftmost position, the model returns the shortest. `start` is a natural number, so a negative `start` is not modelled; `multisplit` never passes one.
- MultiSplit.Split: requires that no delimiter is empty. With an empty delimiter and a non-empty `s`, `multifind` returns `(start, start)` and the source never advances. That loop ends only when `filter_empty` is false and a positive `max_split` runs out. For `s == ""`, `multifind` returns `(0, 0)`, which is `len(s)`, and the loop stops at once. None of the empty-delimiter cases are modelled.
- Decimal.PyInt: Python's `int()` also accepts surrounding whitespace, `_` separators and non-ASCII digits. The model accepts only an optional sign followed by ASCII digits.
- Touch.ParseTime: the calendar checks of `datetime.datetime` (month and day ranges, and so on) are not modelled. The clock is not read: the current year is a parameter.
- Set-valued separators and the `column` output modes are not modelled; they belong to the command's argument handling.

## Findings

| source | as written | input that shows it | evidently intended | confidence | as-written member | corrected member |
|---|---|---|---|---|---|---|
| command/column.py:131 | `for i_col in range(self.col_num)` fixes the number of passes before `_take` deletes columns, so `self.columns[i_col]` indexes past the end | `Table([["a"], ["b"], ["c"], ["d"]])._compress_columns(2)`; through `add_row`, also the third item of `Table.create_column_first(["a", "b", "c"], 2)`, and every `create_column_first` whose `while` guard holds with more than one column | loop while `i_col` is below the live column count, giving `[["a", "b"], ["c", "d"]]` as the test expects | high; not executed | ColumnTable.CompressAsWrittenFails, ColumnTable.CompressCounterexample, ColumnLayout.AddRowsWhileAsWritten | ColumnTable.Compress, ColumnLayout.AddRowsWhile |
| command/touch.py:13 | `seconds` stays the `str` produced by `split`, and is passed to `datetime.datetime`, which raises `TypeError` | `parse_time_decimal("10111213.14")` | `int(seconds)`, giving 12:13:14 as the test expects | high; not executed | Touch.SecondsTextRejected, Touch.SecondsCounterexample | Touch.ParseTime |

=== FILE: decimal.dfy ===
/** Python's `int()` applied to text, restricted to what the modelled
    commands feed it: an optional sign followed by ASCII decimal digits. */
module Decimal {
  import opened Maybe

  predicate IsDigit(c: char) {
    '0' <= c <= '9'
  }

  /** A non-empty run of ASCII decimal digits. */
  predicate IsDigits(s: string) {
    |s| > 0 && forall i :: 0 <= i < |s| ==> IsDigit(s[i])
  }

  function DigitValue(c: char): nat
    requires IsDigit(c)
  {
    c as int - '0' as int
  }

  /** The numeric value of a digit string, most significant digit first. */
  function Value(s: string): nat
    requires forall i :: 0 <= i < |s| ==> IsDigit(s[i])
  {
    if |s| == 0 then 0 else 10 * Value(s[..|s| - 1]) + DigitValue(s[|s| - 1])
  }

  /** Python `int(s)`: one optional leading `+` or `-`, then digits.
      Anything else is the `ValueError` the source would raise. */
  function PyInt(s: string): (r: Option<int>)
    ensures IsDigits(s) ==> r == Some(Value(s))
    ensures |s| > 0 && s[0] == '+' && IsDigits(s[1..]) ==> r == Some(Value(s[1..]))
    ensures |s| > 0 && s[0] == '-' && IsDigits(s[1..]) ==> r == Some(-(Value(s[1..]) as int))
    ensures r.Some? <==> IsDigits(s) || (|s| > 0 && (s[0] == '+' || s[0] == '-') && IsDigits(s[1..]))
  {
    if IsDigits(s) then Some(Value(s))
    else if |s| > 0 && s[0] == '+' && IsDigits(s[1..]) then Some(Value(s[1..]))
    else if |s| > 0 && s[0] == '-' && IsDigits(s[1..]) then Some(-(Value(s[1..]) as int))
    else None
  }

  function Pow10(n: nat): (r: nat)
    ensures r >= 1
  {
    if n == 0 then 1 else 10 * Pow10(n - 1)
  }

  /** Reading digits left to right: the digits of `a` are worth
      `10^|b|` times more than they would be alone. */
  lemma {:induction false} ValueConcat(a: string, b: string)
    requires forall i :: 0 <= i < |a| ==> IsDigit(a[i])
    requires forall i :: 0 <= i < |b| ==> IsDigit(b[i])
    ensures forall i :: 0 <= i < |a + b| ==> IsDigit((a + b)[i])
    ensures Value(a + b) == Value(a) * Pow10(|b|) + Value(b)
  {
    var s := a + b;
    assert forall i :: 0 <= i < |s| ==> IsDigit(s[i]) by {
      forall i | 0 <= i < |s| ensures IsDigit(s[i]) {
        if i < |a| { assert s[i] == a[i]; } else { assert s[i] == b[i - |a|]; }
      }
    }
    if |b| == 0 {
      assert s == a;
    } else {
      var b' := b[..|b| - 1];
      var last := DigitValue(b[|b| - 1]);
      assert s[..|s| - 1] == a + b';
      assert s[|s| - 1] == b[|b| - 1];
      ValueConcat(a, b');
      var va, vb', p := Value(a), Value(b'), Pow10(|b'|);
      assert Value(s) == 10 * (va * p + vb') + last;
      assert Pow10(|b|) == 10 * p;
      assert Value(b) == 10 * vb' + last;
      MulSwap(10, va, p);
    }
  }

  lemma MulSwap(x: int, y: int, z: int)
    ensures x * (y * z) == y * (x * z)
  {
  }

  /** `n` digits never reach `10^n`. */
  lemma {:induction false} ValueBound(s: string)
    requires forall i :: 0 <= i < |s| ==> IsDigit(s[i])
    ensures Value(s) < Pow10(|s|)
  {
    if |s| > 0 {
      ValueBound(s[..|s| - 1]);
    }
  }

  /** Leading zeros do not change the number: `int("007") == 7`. */
  lemma LeadingZero(s: string)
    requires forall i :: 0 <= i < |s| ==> IsDigit(s[i])
    ensures forall i :: 0 <= i < |"0" + s| ==> IsDigit(("0" + s)[i])
    ensures Value("0" + s) == Value(s)
  {
    ValueConcat("0", s);
    assert "0"[..0] == [];
  }

  function DigitChar(d: nat): (c: char)
    requires d < 10
    ensures IsDigit(c) && DigitValue(c) == d
  {
    ('0' as int + d) as char
  }

  /** `str(n)` for a non-negative `n`: its shortest decimal digits. */
  function DecimalText(n: nat): (s: string)
    ensures IsDigits(s)
    ensures |s| == 1 || s[0] != '0'
  {
    if n < 10 then [DigitChar(n)] else DecimalText(n / 10) + [DigitChar(n % 10)]
  }

  /** `int(str(n)) == n`, and `int(str(-n)) == -n`. */
  lemma {:induction false} DecimalTextRoundTrip(n: nat)
    ensures PyInt(DecimalText(n)) == Some(n)
    ensures n > 0 ==> PyInt("-" + DecimalText(n)) == Some(-(n as int))
  {
    var s := DecimalText(n);
    if n < 10 {
      assert s[..0] == [];
    } else {
      DecimalTextRoundTrip(n / 10);
      assert s[..|s| - 1] == DecimalText(n / 10);
    }
    assert Value(s) == n;
    assert ("-" + s)[1..] == s;
  }

  /** Two digits read as a number between 0 and 99. */
  lemma TwoDigits(s: string)
    requires |s| == 2 && IsDigits(s)
    ensures Value(s) == 10 * DigitValue(s[0]) + DigitValue(s[1])
    ensures Value(s) <= 99
  {
    var head := s[..1];
    assert s[..|s| - 1] == head;
    assert head[..0] == [];
    assert Value(head) == 10 * Value(head[..0]) + DigitValue(head[0]);
  }
}

=== FILE: grid.dfy ===
/** Facts about a ragged, column-major grid `seq<seq<T>>`. */
module Grid {

  /** The items in column-major order: column 0 top to bottom, then column 1, ... */
  function Flatten<T>(cols: seq<seq<T>>): seq<T> {
    if |cols| == 0 then [] else cols[0] + Flatten(cols[1..])
  }

  /** Number of items in the grid. */
  function Count<T>(cols: seq<seq<T>>): nat {
    |Flatten(cols)|
  }

  /** Every column holds at most `m` items. */
  predicate AtMost<T>(cols: seq<seq<T>>, m: int) {
    forall i :: 0 <= i < |cols| ==> |cols[i]| <= m
  }

  /** Every column from index `i` on holds at most `m` items. */
  predicate AtMostFrom<T>(cols: seq<seq<T>>, i: nat, m: int) {
    forall k :: i <= k < |cols| ==> |cols[k]| <= m
  }

  /** No column from index `i` on is empty. */
  predicate NoEmptyFrom<T>(cols: seq<seq<T>>, i: nat) {
    forall k :: i <= k < |cols| ==> |cols[k]| > 0
  }

  /** `a` is what is left of `b` after removing items from its front. */
  ghost predicate IsSuffix<T>(a: seq<T>, b: seq<T>) {
    |a| <= |b| && a == b[|b| - |a|..]
  }

  lemma {:induction false} FlattenConcat<T>(a: seq<seq<T>>, b: seq<seq<T>>)
    ensures Flatten(a + b) == Flatten(a) + Flatten(b)
    decreases |a|
  {
    if |a| == 0 {
      assert a + b == b;
    } else {
      assert (a + b)[1..] == a[1..] + b;
      FlattenConcat(a[1..], b);
    }
  }

  /** Flattening splits at any column boundary. */
  lemma FlattenSplit<T>(cols: seq<seq<T>>, k: nat)
    requires k <= |cols|
    ensures Flatten(cols) == Flatten(cols[..k]) + Flatten(cols[k..])
  {
    assert cols == cols[..k] + cols[k..];
    FlattenConcat(cols[..k], cols[k..]);
  }

  /** Flattening one column from position `k` on. */
  lemma FlattenAt<T>(cols: seq<seq<T>>, k: nat)
    requires k < |cols|
    ensures Flatten(cols[k..]) == cols[k] + Flatten(cols[k + 1..])
  {
    assert cols[k..][1..] == cols[k + 1..];
  }

  /** Flattening around one column. */
  lemma FlattenAround<T>(cols: seq<seq<T>>, k: nat)
    requires k < |cols|
    ensures Flatten(cols) == Flatten(cols[..k]) + cols[k] + Flatten(cols[k + 1..])
  {
    FlattenSplit(cols, k);
    FlattenAt(cols, k);
  }

  lemma FlattenSingle<T>(c: seq<T>)
    ensures Flatten([c]) == c
  {
    assert [c][1..] == [];
  }

  /** No column holds more than the whole grid. */
  lemma {:induction false} CountAtLeastColumn<T>(cols: seq<seq<T>>, k: nat)
    requires k < |cols|
    ensures Count(cols) >= |cols[k]|
    ensures k > 0 ==> Count(cols) >= |cols[0]| + |cols[k]|
    decreases |cols|
  {
    if k > 0 {
      CountAtLeastColumn(cols[1..], k - 1);
    }
  }

  lemma SuffixTrans<T>(a: seq<T>, b: seq<T>, c: seq<T>)
    requires IsSuffix(a, b) && IsSuffix(b, c)
    ensures IsSuffix(a, c)
  {
    assert c[|c| - |b|..][|b| - |a|..] == c[|c| - |a|..];
  }
}

=== FILE: layout.dfy ===
/** `Table.create_column_first`: the greedy column-major layout driven by
    a width limit and a caller-supplied length function. */
module ColumnLayout {
  import opened Grid
  import opened ColumnTable
  import opened Maybe

  /** The shape every table built by column-first filling has: every
      column but the last is full, the last is not over-full, and only a
      lone first column may be empty. */
  predicate Shaped<T>(t: Table<T>) {
    && Valid(t)
    && |t.columns| >= 1
    && (forall k :: 0 <= k < |t.columns| - 1 ==> |t.columns[k]| == t.rows)
    && NoEmptyFrom(t.columns, 1)
  }

  /** In a shaped table, there is more than one column exactly when there
      are more items than rows. */
  lemma {:induction false} ShapedColumnsVersusCount<T>(t: Table<T>)
    requires Shaped(t)
    ensures |t.columns| > 1 <==> Count(t.columns) > t.rows
  {
    var n := |t.columns|;
    if n > 1 {
      CountAtLeastColumn(t.columns, n - 1);
    } else {
      FlattenSingle(t.columns[0]);
      assert t.columns == [t.columns[0]];
    }
  }

  /** `add_row()` keeps a table shaped. */
  lemma AddRowShaped<T>(t: Table<T>)
    requires Shaped(t)
    ensures Shaped(AddRow(t, true))
  {
  }

  /** In a shaped table only the last column can be short, so the row view
      that stops at the first short column holds every item at that row
      index. */
  lemma ShapedRowSkips<T>(t: Table<T>, index: nat)
    requires Shaped(t)
    ensures Row(t, index) == RowSkipping(t.columns, index)
  {
    assert t.columns[0..] == t.columns;
    RowStopsWhereSkipping(t.columns, index, 0);
  }

  /** In a shaped table the `rows` views show every item: item `i` of
      column `c` is entry `c` of row view `i`. */
  lemma ShapedRowsShowEveryItem<T>(t: Table<T>, c: nat, i: nat)
    requires Shaped(t) && c < |t.columns| && i < |t.columns[c]|
    ensures i < |Rows(t)| && c < |Rows(t)[i]| && Rows(t)[i][c] == t.columns[c][i]
  {
  }

  /** A valid table whose second column is longer than its first hides an
      item from the `rows` views: `RowIter` stops at the short column. */
  lemma UnshapedRowHidesItem<T>(a: T, b: T, c: T)
    ensures var t := Table([[a], [b, c]], 2);
      Valid(t) && Rows(t)[1] == [] && |Rows(t)| == 2
  {
    var t := Table([[a], [b, c]], 2);
    assert Rows(t)[1] == Row(t, 1);
  }

  /** `sum(length_function(x) + column_padding for x in row)`. */
  function RowWidth<T>(row: seq<T>, width: T -> nat, padding: int): int {
    if |row| == 0 then 0 else width(row[0]) + padding + RowWidth(row[1..], width, padding)
  }

  /** The `while` loop of `create_column_first`. Its guard compares a
      `new_row_size` computed once before the loop, so once it holds with
      more than one column, rows are added until a single column is left:
      that column holds every item and the row count equals the item count. */
  function AddRowsWhile<T>(t: Table<T>, overflow: bool): (r: Table<T>)
    requires Shaped(t)
    decreases Count(t.columns) - t.rows
    ensures Shaped(r) && Flatten(r.columns) == Flatten(t.columns) && r.rows >= t.rows
    ensures overflow && |t.columns| > 1 ==> r.columns == [Flatten(t.columns)] && r.rows == Count(t.columns)
    ensures !(overflow && |t.columns| > 1) ==> r == t
  {
    if overflow && |t.columns| > 1 then
      ShapedColumnsVersusCount(t);
      var t' := AddRow(t, true);
      AddRowShaped(t);
      ShapedColumnsVersusCount(t');
      var r := AddRowsWhile(t', overflow);
      if |t'.columns| == 1 then
        FlattenSingle(t'.columns[0]);
        assert t'.columns == [t'.columns[0]];
        r
      else r
    else t
  }

  /** `add_row()` over `_compress_columns` as written: `None` is the
      `IndexError` it raises once a column is deleted. */
  function AddRowAsWritten<T>(t: Table<T>): Option<Table<T>> {
    match CompressAsWritten(t.columns, t.rows + 1)
    case None => None
    case Some(cols) => Some(Table(cols, t.rows + 1))
  }

  /** `add_row()` as written succeeds, with the corrected result, exactly
      when the compression deletes no column. */
  lemma AddRowAsWrittenFails<T>(t: Table<T>)
    ensures AddRowAsWritten(t).Some? ==> AddRowAsWritten(t).value == AddRow(t, true)
    ensures AddRowAsWritten(t).None? <==> |AddRow(t, true).columns| < |t.columns|
  {
    var rows := t.rows + 1;
    CompressAsWrittenFails(t.columns, rows);
    assert AddRow(t, true) == Table(Compress(t.columns, rows), rows);
  }

  /** The `while` loop of `create_column_first` over `add_row()` as
      written: once its guard holds with more than one column it must
      shrink the table to one column, some compression on the way deletes
      a column, and the loop raises. */
  function AddRowsWhileAsWritten<T>(t: Table<T>, overflow: bool): (r: Option<Table<T>>)
    requires Shaped(t)
    decreases Count(t.columns) - t.rows
    ensures overflow && |t.columns| > 1 ==> r == None
    ensures !(overflow && |t.columns| > 1) ==> r == Some(AddRowsWhile(t, overflow))
  {
    if overflow && |t.columns| > 1 then
      ShapedColumnsVersusCount(t);
      AddRowShaped(t);
      AddRowAsWrittenFails(t);
      match AddRowAsWritten(t)
      case None => None
      case Some(t') => AddRowsWhileAsWritten(t', overflow)
    else Some(t)
  }

  /** `new_row_size > max_row_width`: the width of the last row (row index
      `rows - 1`) plus the new item exceeds the limit. */
  predicate Overflows<T>(t: Table<T>, item: T, maxWidth: int, padding: int, width: T -> nat)
    requires t.rows >= 1
  {
    width(item) + RowWidth(Row(t, t.rows - 1), width, padding) > maxWidth
  }

  /** One turn of the `for` loop: measure the last row plus the new item,
      add rows while that is too wide, then append the item. */
  function Place<T>(t: Table<T>, item: T, maxWidth: int, padding: int, width: T -> nat): (r: Table<T>)
    requires Shaped(t)
    ensures Shaped(r)
    ensures Flatten(r.columns) == Flatten(t.columns) + [item]
    ensures r.rows == t.rows || (r.rows == Count(t.columns) && Count(t.columns) > t.rows)
    ensures Overflows(t, item, maxWidth, padding, width) && |t.columns| > 1 ==>
      r.columns == [Flatten(t.columns), [item]] && r.rows == Count(t.columns)
    ensures !Overflows(t, item, maxWidth, padding, width) || |t.columns| == 1 ==> r == Append(t, item)
  {
    var overflow := Overflows(t, item, maxWidth, padding, width);
    var grown := AddRowsWhile(t, overflow);
    AppendShaped(grown, item);
    if overflow && |t.columns| > 1 then
      CollapsedAppend(t, grown, item);
      Append(grown, item)
    else Append(grown, item)
  }

  /** `append_to_column` keeps a table shaped. */
  lemma AppendShaped<T>(t: Table<T>, x: T)
    requires Shaped(t)
    ensures Shaped(Append(t, x))
  {
  }

  /** Appending to a table collapsed into one column holding every item
      opens a second column. */
  lemma CollapsedAppend<T>(t: Table<T>, grown: Table<T>, x: T)
    requires Shaped(t) && |t.columns| > 1
    requires grown.columns == [Flatten(t.columns)] && grown.rows == Count(t.columns)
    ensures Append(grown, x).columns == [Flatten(t.columns), [x]]
    ensures Append(grown, x).rows == Count(t.columns)
  {
  }

  /** The `for` loop over the input from a given table on. */
  function Fill<T>(t: Table<T>, items: seq<T>, maxWidth: int, padding: int, width: T -> nat): (r: Table<T>)
    requires Shaped(t)
    decreases |items|
    ensures Shaped(r)
    ensures Flatten(r.columns) == Flatten(t.columns) + items
    ensures t.rows <= r.rows <= Max(t.rows, Count(t.columns) + |items|)
  {
    if |items| == 0 then t
    else
      var t' := Place(t, items[0], maxWidth, padding, width);
      var r := Fill(t', items[1..], maxWidth, padding, width);
      ConcatStep(Flatten(t.columns), Flatten(t'.columns), Flatten(r.columns), items);
      r
  }

  /** Appending the first item, then the rest, appends them all. */
  lemma ConcatStep<T>(before: seq<T>, middle: seq<T>, after: seq<T>, items: seq<T>)
    requires |items| > 0
    requires middle == before + [items[0]]
    requires after == middle + items[1..]
    ensures after == before + items
    ensures |after| == |before| + |items|
  {
    assert [items[0]] + items[1..] == items;
  }

  function Max(a: int, b: int): int {
    if a >= b then a else b
  }

  /** `Table.create_column_first(input, max_row_width, column_padding,
      length_function)`, returning the table it builds. */
  function ColumnFirst<T>(items: seq<T>, maxWidth: int, padding: int, width: T -> nat): (r: Table<T>)
    ensures Shaped(r)
    ensures Flatten(r.columns) == items
    ensures 1 <= r.rows <= Max(1, |items|)
    ensures |items| == 0 ==> r == Table([[]], 1)
  {
    var e := Empty<T>();
    assert e.columns == [[]];
    FlattenSingle<T>([]);
    Fill(e, items, maxWidth, padding, width)
  }
}

=== FILE: maybe.dfy ===
/** An optional value: a search that finds nothing, or a Python call that
    raises instead of returning. */
module Maybe {

  /** As a result of a modelled Python call, `None` stands for the
      `ValueError`/`TypeError`/`IndexError` it would raise and `Some(v)`
      for a normal return of `v`. */
  datatype Option<+T> = None | Some(value: T)
}

=== FILE: multisplit.dfy ===
/** `multifind` and `multisplit`: finding and cutting at the leftmost
    occurrence of any of a set of delimiter strings. */
module MultiSplit {
  import opened Maybe

  /** `d` occurs in `s` starting at position `j`. */
  predicate OccursAt(s: string, d: string, j: nat) {
    j + |d| <= |s| && s[j..j + |d|] == d
  }

  /** Some string of `items` occurs in `s` starting at position `j`. */
  predicate AnyAt(s: string, items: set<string>, j: nat) {
    exists d :: d in items && OccursAt(s, d, j)
  }

  /** The `k` characters of `s` from position `b` are one of `items`. */
  predicate HitAt(s: string, items: set<string>, b: nat, k: nat) {
    b + k <= |s| && s[b..b + k] in items
  }

  /** Scans candidate lengths `e, e+1, ...` at position `b` for the first
      one whose slice is in `items`. Python walks the set of item lengths
      in its hash order; this scan fixes that order to increasing length. */
  function ShortestAt(s: string, items: set<string>, b: nat, e: nat): (r: Option<nat>)
    requires b <= |s|
    decreases |s| - b - e
    ensures r.Some? ==> e <= r.value && HitAt(s, items, b, r.value)
    ensures r.Some? ==> forall k :: e <= k < r.value ==> !HitAt(s, items, b, k)
    ensures r.None? ==> forall k :: e <= k ==> !HitAt(s, items, b, k)
  {
    if b + e > |s| then None
    else if s[b..b + e] in items then Some(e)
    else ShortestAt(s, items, b, e + 1)
  }

  lemma NoneAt(s: string, items: set<string>, j: nat)
    requires forall k :: 0 <= k ==> !HitAt(s, items, j, k)
    ensures !AnyAt(s, items, j)
  {
    if AnyAt(s, items, j) {
      var d :| d in items && OccursAt(s, d, j);
      assert HitAt(s, items, j, |d|);
    }
  }

  /** `multifind(s, items, start)`: the start and end of the leftmost
      occurrence at or after `start`, or `(|s|, |s|)` when there is none.
      At the leftmost position the shortest matching item wins. */
  function MultiFind(s: string, items: set<string>, start: nat): (r: (nat, nat))
    decreases |s| - start
    ensures r.0 <= r.1 <= |s|
    ensures r.0 == |s| ==> r.1 == |s|
    ensures r.0 < |s| ==> start <= r.0 && s[r.0..r.1] in items
    ensures r.0 < |s| ==> forall k: nat :: k < r.1 - r.0 ==> !HitAt(s, items, r.0, k)
    ensures forall j :: start <= j < r.0 ==> !AnyAt(s, items, j)
  {
    if start >= |s| then (|s|, |s|)
    else match ShortestAt(s, items, start, 0)
      case Some(e) => (start, start + e)
      case None =>
        NoneAt(s, items, start);
        MultiFind(s, items, start + 1)
  }

  /** Python would also try lengths that run past the end of `s`, whose
      clamped slice is `s[b..]`; that slice is already tried at length
      `|s| - b`, so with increasing lengths the end never passes `|s|`. */
  lemma ClampedSliceAlreadyTried(s: string, items: set<string>, b: nat)
    requires b <= |s| && s[b..] in items
    ensures ShortestAt(s, items, b, 0).Some? && b + ShortestAt(s, items, b, 0).value <= |s|
  {
    assert s[b..b + (|s| - b)] == s[b..];
    assert HitAt(s, items, b, |s| - b);
  }

  /** The loop of `multisplit` from `lastEnd` on, with `maxSplit` pieces
      still allowed (negative: no limit). */
  function Split(s: string, delims: set<string>, lastEnd: nat, maxSplit: int, filterEmpty: bool): (r: seq<string>)
    requires lastEnd <= |s|
    requires "" !in delims
    decreases |s| - lastEnd
    ensures maxSplit > 0 ==> |r| <= maxSplit
    ensures maxSplit == 0 ==> r == []
    ensures filterEmpty ==> forall i :: 0 <= i < |r| ==> r[i] != ""
  {
    if maxSplit == 0 then []
    else
      var (b, e) := MultiFind(s, delims, lastEnd);
      var emit := !filterEmpty || lastEnd != b;
      var piece := if emit then [s[lastEnd..b]] else [];
      if b == |s| && e == |s| then piece
      else
        assert s[b..e] != "";
        piece + Split(s, delims, e, if emit then maxSplit - 1 else maxSplit, filterEmpty)
  }

  /** `multisplit(s, delims, max_split, filter_empty)`. An empty delimiter
      would make the source loop without advancing, so it is excluded. */
  function MultiSplitOf(s: string, delims: set<string>, maxSplit: int, filterEmpty: bool): (r: seq<string>)
    requires "" !in delims
    ensures maxSplit > 0 ==> |r| <= maxSplit
    ensures filterEmpty ==> forall i :: 0 <= i < |r| ==> r[i] != ""
  {
    Split(s, delims, 0, maxSplit, filterEmpty)
  }

  /** No item occurs in `t` at a position before `m`. */
  predicate NoneBefore(t: string, items: set<string>, m: nat) {
    forall j :: 0 <= j < m ==> !AnyAt(t, items, j)
  }

  /** Reference definition of the unlimited, unfiltered split: `t` is
      `pieces[0] + seps[0] + pieces[1] + ... + pieces[|seps|]`, each
      separator is an item occurring at the leftmost position after the
      previous one, and no shorter item occurs there. */
  predicate LeftmostCut(t: string, items: set<string>, pieces: seq<string>, seps: seq<string>)
    decreases |seps|
  {
    |pieces| == |seps| + 1 &&
    if |seps| == 0 then pieces[0] == t && NoneBefore(t, items, |t|)
    else
      var p := pieces[0];
      var d := seps[0];
      var m := |p| + |d|;
      && m <= |t| && t[..|p|] == p && t[|p|..m] == d && d in items
      && NoneBefore(t, items, |p|)
      && (forall k: nat :: k < |d| ==> !HitAt(t, items, |p|, k))
      && LeftmostCut(t[m..], items, pieces[1..], seps[1..])
  }

  /** Pieces and separators put back together. */
  function Interleave(pieces: seq<string>, seps: seq<string>): string
    requires |pieces| == |seps| + 1
    decreases |seps|
  {
    if |seps| == 0 then pieces[0] else pieces[0] + seps[0] + Interleave(pieces[1..], seps[1..])
  }

  lemma ShiftAnyAt(s: string, items: set<string>, from: nat, j: nat)
    requires from <= |s|
    ensures AnyAt(s[from..], items, j) <==> AnyAt(s, items, from + j)
  {
    if AnyAt(s[from..], items, j) {
      var d :| d in items && OccursAt(s[from..], d, j);
      assert s[from..][j..j + |d|] == s[from + j..from + j + |d|];
      assert OccursAt(s, d, from + j);
    }
    if AnyAt(s, items, from + j) {
      var d :| d in items && OccursAt(s, d, from + j);
      assert s[from..][j..j + |d|] == s[from + j..from + j + |d|];
      assert OccursAt(s[from..], d, j);
    }
  }

  lemma ShiftNoneBefore(s: string, items: set<string>, from: nat, to: nat)
    requires from <= to <= |s|
    requires forall j :: from <= j < to ==> !AnyAt(s, items, j)
    ensures NoneBefore(s[from..], items, to - from)
  {
    forall j | 0 <= j < to - from ensures !AnyAt(s[from..], items, j) {
      ShiftAnyAt(s, items, from, j);
    }
  }

  /** With no limit and no filtering, `multisplit` cuts at the leftmost,
      shortest delimiter occurrences; the returned `seps` are the
      delimiters it matched, in order. */
  lemma {:induction false} SplitIsLeftmostCut(s: string, delims: set<string>, from: nat, maxSplit: int)
    returns (seps: seq<string>)
    requires from <= |s| && "" !in delims && maxSplit < 0
    ensures LeftmostCut(s[from..], delims, Split(s, delims, from, maxSplit, false), seps)
    decreases |s| - from
  {
    var (b, e) := MultiFind(s, delims, from);
    var t := s[from..];
    var r := Split(s, delims, from, maxSplit, false);
    ShiftNoneBefore(s, delims, from, b);
    if b == |s| && e == |s| {
      seps := [];
      assert r == [s[from..b]];
    } else {
      var rest := SplitIsLeftmostCut(s, delims, e, maxSplit - 1);
      seps := [s[b..e]] + rest;
      var p := s[from..b];
      assert r == [p] + Split(s, delims, e, maxSplit - 1, false);
      assert r[1..] == Split(s, delims, e, maxSplit - 1, false);
      assert seps[1..] == rest;
      assert t[..|p|] == p;
      assert t[|p|..|p| + (e - b)] == s[b..e];
      assert t[|p| + (e - b)..] == s[e..];
      forall k: nat | k < e - b ensures !HitAt(t, delims, |p|, k) {
        assert !HitAt(s, delims, b, k);
        assert t[|p|..|p| + k] == s[b..b + k];
      }
    }
  }

  /** A `LeftmostCut` of a text is unique: the reference definition
      determines the pieces and separators completely. */
  lemma {:induction false} LeftmostCutUnique(t: string, items: set<string>, p1: seq<string>, s1: seq<string>, p2: seq<string>, s2: seq<string>)
    requires "" !in items
    requires LeftmostCut(t, items, p1, s1) && LeftmostCut(t, items, p2, s2)
    ensures p1 == p2 && s1 == s2
    decreases |s1|
  {
    if |s1| == 0 && |s2| == 0 {
    } else if |s1| == 0 {
      assert OccursAt(t, s2[0], |p2[0]|);
      assert AnyAt(t, items, |p2[0]|);
    } else if |s2| == 0 {
      assert OccursAt(t, s1[0], |p1[0]|);
      assert AnyAt(t, items, |p1[0]|);
    } else {
      var a := p1[0];
      var c := p2[0];
      if |a| < |c| {
        assert OccursAt(t, s1[0], |a|);
        assert AnyAt(t, items, |a|);
      } else if |c| < |a| {
        assert OccursAt(t, s2[0], |c|);
        assert AnyAt(t, items, |c|);
      }
      assert a == c;
      var d1 := s1[0];
      var d2 := s2[0];
      ShortestSeparatorUnique(t, items, |a|, d1, d2);
      LeftmostCutUnique(t[|a| + |d1|..], items, p1[1..], s1[1..], p2[1..], s2[1..]);
      assert p1 == [a] + p1[1..];
      assert p2 == [c] + p2[1..];
      assert s1 == [d1] + s1[1..];
      assert s2 == [d2] + s2[1..];
    }
  }

  /** Two items that both occur at `pos`, with no shorter item there, are
      the same item. */
  lemma ShortestSeparatorUnique(t: string, items: set<string>, pos: nat, d1: string, d2: string)
    requires d1 in items && d2 in items
    requires pos + |d1| <= |t| && t[pos..pos + |d1|] == d1
    requires pos + |d2| <= |t| && t[pos..pos + |d2|] == d2
    requires forall k: nat :: k < |d1| ==> !HitAt(t, items, pos, k)
    requires forall k: nat :: k < |d2| ==> !HitAt(t, items, pos, k)
    ensures d1 == d2
  {
    if |d1| < |d2| {
      assert HitAt(t, items, pos, |d1|);
    } else if |d2| < |d1| {
      assert HitAt(t, items, pos, |d2|);
    }
  }

  /** Putting the pieces of a cut back together with their separators
      gives the text back. */
  lemma {:induction false} LeftmostCutRejoins(t: string, items: set<string>, pieces: seq<string>, seps: seq<string>)
    requires LeftmostCut(t, items, pieces, seps)
    ensures Interleave(pieces, seps) == t
    decreases |seps|
  {
    if |seps| > 0 {
      var m := |pieces[0]| + |seps[0]|;
      LeftmostCutRejoins(t[m..], items, pieces[1..], seps[1..]);
      assert t == t[..|pieces[0]|] + t[|pieces[0]|..m] + t[m..];
    }
  }

  /** `multisplit(s, delims, -1, False)` loses nothing: its pieces and the
      delimiters it matched rebuild `s`. */
  lemma UnfilteredSplitRejoins(s: string, delims: set<string>) returns (seps: seq<string>)
    requires "" !in delims
    ensures |MultiSplitOf(s, delims, -1, false)| == |seps| + 1
    ensures Interleave(MultiSplitOf(s, delims, -1, false), seps) == s
    ensures forall i :: 0 <= i < |seps| ==> seps[i] in delims
  {
    seps := SplitIsLeftmostCut(s, delims, 0, -1);
    assert s[0..] == s;
    LeftmostCutRejoins(s, delims, MultiSplitOf(s, delims, -1, false), seps);
    SepsAreDelims(s, delims, MultiSplitOf(s, delims, -1, false), seps);
  }

  lemma {:induction false} SepsAreDelims(t: string, items: set<string>, pieces: seq<string>, seps: seq<string>)
    requires LeftmostCut(t, items, pieces, seps)
    ensures forall i :: 0 <= i < |seps| ==> seps[i] in items
    decreases |seps|
  {
    if |seps| > 0 {
      var m := |pieces[0]| + |seps[0]|;
      SepsAreDelims(t[m..], items, pieces[1..], seps[1..]);
      assert forall i :: 1 <= i < |seps| ==> seps[i] == seps[1..][i - 1];
    }
  }

  /** The pieces with the empty ones dropped. */
  function NonEmpty(xs: seq<string>): (r: seq<string>)
    ensures forall i :: 0 <= i < |r| ==> r[i] != ""
  {
    if |xs| == 0 then []
    else (if xs[0] == "" then [] else [xs[0]]) + NonEmpty(xs[1..])
  }

  /** Filtering only drops the empty pieces: it does not move any cut. */
  lemma {:induction false} FilteredDropsEmptyPieces(s: string, delims: set<string>, from: nat, m1: int, m2: int)
    requires from <= |s| && "" !in delims && m1 < 0 && m2 < 0
    ensures Split(s, delims, from, m1, true) == NonEmpty(Split(s, delims, from, m2, false))
    decreases |s| - from
  {
    var (b, e) := MultiFind(s, delims, from);
    var piece := s[from..b];
    var u := Split(s, delims, from, m2, false);
    if b == |s| && e == |s| {
      assert u == [piece];
      assert u[1..] == [];
    } else {
      var m1' := if from != b then m1 - 1 else m1;
      FilteredDropsEmptyPieces(s, delims, e, m1', m2 - 1);
      assert u == [piece] + Split(s, delims, e, m2 - 1, false);
      assert u[1..] == Split(s, delims, e, m2 - 1, false);
    }
  }

  /** The first `k` items of `xs` (all of them when there are fewer). */
  function Prefix<X>(xs: seq<X>, k: nat): (r: seq<X>)
    ensures |r| <= k && |r| <= |xs|
    ensures forall i :: 0 <= i < |r| ==> r[i] == xs[i]
  {
    if k >= |xs| then xs else xs[..k]
  }

  /** A positive `max_split` of `k` keeps the first `k` pieces of the
      unlimited split; unlike `str.split`, the last piece does not run to
      the end of `s`. */
  lemma {:induction false} LimitTakesPrefix(s: string, delims: set<string>, from: nat, k: int, m: int, filterEmpty: bool)
    requires from <= |s| && "" !in delims && k > 0 && m < 0
    ensures Split(s, delims, from, k, filterEmpty) == Prefix(Split(s, delims, from, m, filterEmpty), k)
    decreases |s| - from
  {
    var (b, e) := MultiFind(s, delims, from);
    var emit := !filterEmpty || from != b;
    var piece := if emit then [s[from..b]] else [];
    if b == |s| && e == |s| {
    } else {
      assert s[b..e] != "";
      var k' := if emit then k - 1 else k;
      var m' := if emit then m - 1 else m;
      var rest := Split(s, delims, e, m', filterEmpty);
      assert Split(s, delims, from, m, filterEmpty) == piece + rest;
      if k' == 0 {
        assert emit && Split(s, delims, from, k, filterEmpty) == piece;
        assert (piece + rest)[..1] == piece;
      } else {
        LimitTakesPrefix(s, delims, e, k', m', filterEmpty);
        if k' < |rest| {
          assert (piece + rest)[..k] == piece + rest[..k'];
        }
      }
    }
  }
}

=== FILE: table.dfy ===
/** The `Table` of the `column` command: a ragged, column-major grid of
    opaque items with a declared row count. Python mutates the table in
    place; here every operation returns the new state. */
module ColumnTable {
  import opened Grid
  import opened Maybe

  /** `columns[c][r]` is the item in column `c`, row `r`; `rows` is `_rows`. */
  datatype Table<T> = Table(columns: seq<seq<T>>, rows: int)

  /** The table invariant: at least one row, and no column longer than the
      row count. */
  predicate Valid<T>(t: Table<T>) {
    t.rows >= 1 && AtMost(t.columns, t.rows)
  }

  /** Length of the longest column, 0 when there is none. */
  function MaxLen<T>(cols: seq<seq<T>>): (m: nat)
    ensures AtMost(cols, m)
    ensures |cols| > 0 ==> exists i :: 0 <= i < |cols| && |cols[i]| == m
    ensures |cols| == 0 ==> m == 0
  {
    if |cols| == 0 then 0
    else
      var rest := MaxLen(cols[1..]);
      assert forall i :: 1 <= i < |cols| ==> cols[i] == cols[1..][i - 1];
      if |cols[0]| >= rest then |cols[0]| else rest
  }

  /** `Table.__init__`: the row count is the longest column's length, or 1
      when every column is empty or there are none. Each table is a fresh
      value, so the shared default list of the source plays no part. */
  function New<T>(columns: seq<seq<T>>): (t: Table<T>)
    ensures t.columns == columns
    ensures t.rows >= 1 && AtMost(columns, t.rows)
    ensures t.rows == 1 || exists i :: 0 <= i < |columns| && |columns[i]| == t.rows
  {
    var m := MaxLen(columns);
    Table(columns, if m == 0 then 1 else m)
  }

  /** `Table()`: a single empty column and one row. */
  function Empty<T>(): (t: Table<T>)
    ensures t.rows == 1 && Count(t.columns) == 0 && |t.columns| == 1
  {
    New([[]])
  }

  function Min(a: int, b: int): int {
    if a <= b then a else b
  }

  /** `out` is `cols` after items were removed from the front of the
      columns from `start` on, emptied columns being deleted: the columns
      before `start` are untouched; from `start` on there is what remains of
      one column `j` followed by the untouched columns after `j`; that
      remainder is empty only if column `j` was empty to begin with; and
      when column `j` is left whole after a deletion, the last column
      deleted was not already empty (an empty column is deleted only on the
      way to a later one). */
  ghost predicate ConsumedFrom<T>(cols: seq<seq<T>>, start: nat, out: seq<seq<T>>) {
    && start <= |out| <= |cols|
    && out[..start] == cols[..start]
    && (|out| > start ==>
          var j := |cols| - |out| + start;
          && out[start + 1..] == cols[j + 1..]
          && IsSuffix(out[start], cols[j])
          && (out[start] == [] ==> cols[j] == [])
          && (j > start && out[start] == cols[j] ==> cols[j - 1] != []))
  }

  /** `_take(n, start)`: removes up to `n` items from the fronts of the
      columns from `start` on, deleting every column it empties (and every
      already-empty column it meets). Returns the items and the new columns. */
  function Take<T>(cols: seq<seq<T>>, n: int, start: nat): (r: (seq<T>, seq<seq<T>>))
    decreases if n > 0 then n else 0, |cols|
    ensures start >= |cols| || n <= 0 ==> r == ([], cols)
    ensures start <= |cols| ==> TakeFacts(cols, n, start, r)
  {
    if n <= 0 || start >= |cols| then ([], cols)
    else if |cols[start]| == 0 then
      var r := Take(cols[..start] + cols[start + 1..], n, start);
      TakeSkipStep(cols, n, start, r);
      r
    else
      var rest := cols[start][1..];
      var cols' := if |rest| == 0 then cols[..start] + cols[start + 1..] else cols[start := rest];
      var r' := Take(cols', n - 1, start);
      TakePopStep(cols, n, start, r');
      ([cols[start][0]] + r'.0, r'.1)
  }

  /** What `Take(cols, n, start)` promises once `n > 0` and `start` is a
      column index, stated of a candidate result `r`. */
  ghost predicate TakeFacts<T>(cols: seq<seq<T>>, n: int, start: nat, r: (seq<T>, seq<seq<T>>))
    requires start <= |cols|
  {
    && ConsumedFrom(cols, start, r.1)
    && Flatten(cols[start..]) == r.0 + Flatten(r.1[start..])
    && |r.0| == (if n <= 0 then 0 else Min(n, Count(cols[start..])))
    && (|r.0| < n ==> |r.1| == start)
    && (n > 0 && start < |r.1| == |cols| ==> |r.1[start]| < |cols[start]|)
    && (n > 0 && |r.0| == n && |r.1| == start < |cols| ==> cols[|cols| - 1] != [])
    && (n <= 0 ==> r.1 == cols)
  }

  /** The step of `Take` that deletes an already empty column `start`. */
  lemma TakeSkipStep<T>(cols: seq<seq<T>>, n: int, start: nat, r: (seq<T>, seq<seq<T>>))
    requires n > 0 && start < |cols| && |cols[start]| == 0
    requires TakeFacts(cols[..start] + cols[start + 1..], n, start, r)
    ensures TakeFacts(cols, n, start, r)
  {
    TakeDeletedColumn(cols, start, r.1);
  }

  /** The step of `Take` that removes the first item of column `start`. */
  lemma TakePopStep<T>(cols: seq<seq<T>>, n: int, start: nat, r': (seq<T>, seq<seq<T>>))
    requires n > 0 && start < |cols| && |cols[start]| > 0
    requires var rest := cols[start][1..];
      TakeFacts(if |rest| == 0 then cols[..start] + cols[start + 1..] else cols[start := rest], n - 1, start, r')
    ensures TakeFacts(cols, n, start, ([cols[start][0]] + r'.0, r'.1))
  {
    if |cols[start]| == 1 {
      var cols' := cols[..start] + cols[start + 1..];
      TakeDeletedColumn(cols, start, r'.1);
      assert cols[start] == [cols[start][0]];
      if start < |cols'| {
        assert cols'[|cols'| - 1] == cols[|cols| - 1];
      }
      TakeCounting(cols, cols', n, start, r');
    } else {
      var cols' := cols[start := cols[start][1..]];
      TakeShortenedColumn(cols, start, r'.1);
      TakeCounting(cols, cols', n, start, r');
    }
  }

  /** The item counts of a `Take` step that removes one item. */
  lemma TakeCounting<T>(cols: seq<seq<T>>, cols': seq<seq<T>>, n: int, start: nat, r': (seq<T>, seq<seq<T>>))
    requires n > 0 && start < |cols| && |cols[start]| > 0 && start <= |cols'| && start <= |r'.1|
    requires Flatten(cols[start..]) == [cols[start][0]] + Flatten(cols'[start..])
    requires Flatten(cols'[start..]) == r'.0 + Flatten(r'.1[start..])
    requires |r'.0| == (if n - 1 <= 0 then 0 else Min(n - 1, Count(cols'[start..])))
    requires |r'.0| < n - 1 ==> |r'.1| == start
    ensures Flatten(cols[start..]) == ([cols[start][0]] + r'.0) + Flatten(r'.1[start..])
    ensures |[cols[start][0]] + r'.0| == Min(n, Count(cols[start..]))
    ensures |[cols[start][0]] + r'.0| < n ==> |r'.1| == start
  {
    var x := cols[start][0];
    var rest' := Flatten(cols'[start..]);
    assert [x] + (r'.0 + Flatten(r'.1[start..])) == ([x] + r'.0) + Flatten(r'.1[start..]);
    PopArithmetic(n, |rest'|, |r'.0|);
  }

  /** Taking one item and then up to `n - 1` more takes up to `n`. */
  lemma PopArithmetic(n: int, c: nat, k: nat)
    requires n > 0
    requires k == if n - 1 <= 0 then 0 else Min(n - 1, c)
    ensures 1 + k == Min(n, c + 1)
    ensures 1 + k < n ==> k < n - 1
  {
  }

  /** The step of `Take` that deletes column `start`. */
  lemma TakeDeletedColumn<T>(cols: seq<seq<T>>, start: nat, out: seq<seq<T>>)
    requires start < |cols| && |cols[start]| <= 1
    requires ConsumedFrom(cols[..start] + cols[start + 1..], start, out)
    requires |cols[start]| == 0 && start < |out| == |cols| - 1 ==> |out[start]| < |cols[start + 1]|
    ensures ConsumedFrom(cols, start, out)
    ensures Flatten(cols[start..]) == cols[start] + Flatten((cols[..start] + cols[start + 1..])[start..])
  {
    var cols' := cols[..start] + cols[start + 1..];
    assert cols'[..start] == cols[..start];
    assert cols'[start..] == cols[start + 1..];
    FlattenAt(cols, start);
    if |out| > start {
      var j' := |cols'| - |out| + start;
      assert cols'[j'] == cols[j' + 1];
      assert cols'[j' + 1..] == cols[j' + 2..];
      if j' > start {
        assert cols'[j' - 1] == cols[j'];
      }
    }
  }

  /** The step of `Take` that removes the first item of column `start`
      without emptying it. */
  lemma TakeShortenedColumn<T>(cols: seq<seq<T>>, start: nat, out: seq<seq<T>>)
    requires start < |cols| && |cols[start]| > 1
    requires ConsumedFrom(cols[start := cols[start][1..]], start, out)
    ensures ConsumedFrom(cols, start, out)
    ensures Flatten(cols[start..]) == [cols[start][0]] + Flatten(cols[start := cols[start][1..]][start..])
  {
    var rest := cols[start][1..];
    var cols' := cols[start := rest];
    assert cols'[..start] == cols[..start];
    assert cols'[start + 1..] == cols[start + 1..];
    FlattenAt(cols, start);
    FlattenAt(cols', start);
    if |out| > start {
      var j := |cols| - |out| + start;
      if j == start {
        assert IsSuffix(rest, cols[start]);
        SuffixTrans(out[start], rest, cols[start]);
      } else {
        assert cols'[j] == cols[j];
        assert j - 1 > start ==> cols'[j - 1] == cols[j - 1];
      }
    }
  }

  /** What `Take` leaves from `start` on holds no more items per column
      than the columns it came from, and no empty column unless one was
      there already. */
  lemma ConsumedBounds<T>(cols: seq<seq<T>>, start: nat, out: seq<seq<T>>, m: int)
    requires start <= |cols| && ConsumedFrom(cols, start, out)
    ensures forall k :: 0 <= k < start ==> out[k] == cols[k]
    ensures AtMostFrom(cols, start, m) ==> AtMostFrom(out, start, m)
    ensures NoEmptyFrom(cols, start) ==> NoEmptyFrom(out, start)
  {
    forall k | 0 <= k < start ensures out[k] == cols[k] {
      assert out[k] == out[..start][k];
    }
    if |out| > start {
      var j := |cols| - |out| + start;
      forall k | start < k < |out| ensures out[k] == cols[k + j - start] {
        assert out[k] == out[start + 1..][k - start - 1];
      }
    }
  }

  /** Two rows of the `_take` cases in the source's test suite, for any
      items in place of the letters: taking past a column's end moves on to
      the next one, and every emptied column is deleted. */
  lemma TakeExampleAcrossColumns<T>(a: T, b: T, c: T, d: T, e: T, f: T)
    ensures Take([[a, b], [c, d], [e], [f]], 3, 1) == ([c, d, e], [[a, b], [f]])
  {
    var cols := [[a, b], [c, d], [e], [f]];
    assert cols[1][1..] == [d];
    assert cols[1 := [d]] == [[a, b], [d], [e], [f]];
    TakeExampleSecondColumn(a, b, d, e, f);
    assert [c] + [d, e] == [c, d, e];
  }

  lemma TakeExampleSecondColumn<T>(a: T, b: T, d: T, e: T, f: T)
    ensures Take([[a, b], [d], [e], [f]], 2, 1) == ([d, e], [[a, b], [f]])
  {
    var cols := [[a, b], [d], [e], [f]];
    assert cols[..1] + cols[2..] == [[a, b], [e], [f]];
    assert cols[1][1..] == [];
    TakeExampleThirdColumn(a, b, e, f);
    assert [d] + [e] == [d, e];
  }

  lemma TakeExampleThirdColumn<T>(a: T, b: T, e: T, f: T)
    ensures Take([[a, b], [e], [f]], 1, 1) == ([e], [[a, b], [f]])
  {
    var cols := [[a, b], [e], [f]];
    var rest := [[a, b], [f]];
    assert cols[..1] + cols[2..] == rest;
    assert cols[1][1..] == [];
    assert Take(rest, 0, 1) == ([], rest);
    assert [e] + [] == [e];
  }

  lemma TakeExampleLastColumn<T>(a: T)
    ensures Take([[a]], 1, 0) == ([a], [])
  {
    var cols := [[a]];
    assert cols[0][1..] == [];
    assert cols[..0] + cols[1..] == [];
    assert Take<T>([], 0, 0) == ([], []);
    assert [a] + [] == [a];
  }

  /** An empty column just past where `_take` stops is left in place:
      taking one item from `[[a], [], [b]]` deletes only the emptied first
      column, so a result that also drops the empty column falls outside
      what `Take` promises. */
  lemma TakeKeepsUnvisitedEmptyColumn<T>(a: T, b: T)
    ensures !TakeFacts([[a], [], [b]], 1, 0, ([a], [[b]]))
  {
  }

  /** Likewise a trailing empty column is kept once the last item has been
      taken: taking one item from `[[a], []]` leaves `[[]]`. */
  lemma TakeKeepsTrailingEmptyColumn<T>(a: T)
    ensures !TakeFacts([[a], []], 1, 0, ([a], []))
  {
  }

  /** One pass of `_compress_columns` from column `i` on: each column is
      topped up to `rowCount` items taken from the columns to its right.
      The pass runs over the columns that still exist, so the columns
      deleted by `Take` are not visited. */
  function CompressFrom<T>(cols: seq<seq<T>>, rowCount: int, i: nat): (r: seq<seq<T>>)
    requires i <= |cols|
    decreases |cols| - i
    ensures i <= |r| <= |cols| && (i < |cols| ==> i < |r|)
    ensures forall k :: 0 <= k < i ==> r[k] == cols[k]
    ensures Flatten(r) == Flatten(cols)
    ensures AtMostFrom(cols, i, rowCount) ==> AtMostFrom(r, i, rowCount)
    ensures AtMostFrom(cols, i, rowCount) ==> forall k :: i <= k < |r| - 1 ==> |r[k]| == rowCount
    ensures NoEmptyFrom(cols, i) ==> NoEmptyFrom(r, i)
    ensures NoEmptyFrom(cols, i + 1) ==> NoEmptyFrom(r, i + 1)
  {
    if i == |cols| then cols
    else
      var (taken, c) := Take(cols, rowCount - |cols[i]|, i + 1);
      CompressStep(cols, rowCount, i, taken, c);
      CompressFrom(c[i := cols[i] + taken], rowCount, i + 1)
  }

  /** One step of the pass, from what `Take` promises. */
  lemma CompressStep<T>(cols: seq<seq<T>>, rowCount: int, i: nat, taken: seq<T>, c: seq<seq<T>>)
    requires i < |cols|
    requires (taken, c) == Take(cols, rowCount - |cols[i]|, i + 1)
    ensures i < |c| <= |cols|
    ensures Flatten(c[i := cols[i] + taken]) == Flatten(cols)
    ensures var next := c[i := cols[i] + taken];
      && (forall k :: 0 <= k < i ==> next[k] == cols[k])
      && (AtMostFrom(cols, i, rowCount) ==>
            AtMostFrom(next, i, rowCount) && (|next| > i + 1 ==> |next[i]| == rowCount))
      && (NoEmptyFrom(cols, i + 1) ==> NoEmptyFrom(next, i + 1))
      && (NoEmptyFrom(cols, i) ==> NoEmptyFrom(next, i))
  {
    var n := rowCount - |cols[i]|;
    assert TakeFacts(cols, n, i + 1, (taken, c));
    ConsumedBounds(cols, i + 1, c, rowCount);
    CompressStepFlatten(cols, i, taken, c);
    CompressStepShape(cols, rowCount, i, taken, c);
  }

  /** One step of the pass keeps the column-major order of the items. */
  lemma CompressStepFlatten<T>(cols: seq<seq<T>>, i: nat, taken: seq<T>, c: seq<seq<T>>)
    requires i < |cols| && i < |c|
    requires forall k :: 0 <= k <= i ==> c[k] == cols[k]
    requires Flatten(cols[i + 1..]) == taken + Flatten(c[i + 1..])
    ensures Flatten(c[i := cols[i] + taken]) == Flatten(cols)
  {
    var next := c[i := cols[i] + taken];
    FlattenAround(cols, i);
    FlattenAround(next, i);
    assert next[..i] == cols[..i];
    assert next[i + 1..] == c[i + 1..];
  }

  /** One step of the pass: column `i` is full unless it is the last one,
      and the columns after it keep their bounds. */
  lemma CompressStepShape<T>(cols: seq<seq<T>>, rowCount: int, i: nat, taken: seq<T>, c: seq<seq<T>>)
    requires i < |cols| && i < |c| <= |cols|
    requires forall k :: 0 <= k <= i ==> c[k] == cols[k]
    requires AtMostFrom(cols, i + 1, rowCount) ==> AtMostFrom(c, i + 1, rowCount)
    requires NoEmptyFrom(cols, i + 1) ==> NoEmptyFrom(c, i + 1)
    requires |taken| <= (if rowCount - |cols[i]| <= 0 then 0 else rowCount - |cols[i]|)
    requires |taken| < rowCount - |cols[i]| ==> |c| == i + 1
    ensures var next := c[i := cols[i] + taken];
      && (forall k :: 0 <= k < i ==> next[k] == cols[k])
      && (AtMostFrom(cols, i, rowCount) ==>
            AtMostFrom(next, i, rowCount) && (|next| > i + 1 ==> |next[i]| == rowCount))
      && (NoEmptyFrom(cols, i + 1) ==> NoEmptyFrom(next, i + 1))
      && (NoEmptyFrom(cols, i) ==> NoEmptyFrom(next, i))
  {
  }

  /** `_compress_columns(rowCount)` with the loop over the live columns. */
  function Compress<T>(cols: seq<seq<T>>, rowCount: int): (r: seq<seq<T>>)
    ensures Flatten(r) == Flatten(cols)
    ensures |r| <= |cols| && (|cols| > 0 ==> |r| > 0)
    ensures AtMost(cols, rowCount) ==> AtMost(r, rowCount)
    ensures AtMost(cols, rowCount) ==> forall k :: 0 <= k < |r| - 1 ==> |r[k]| == rowCount
    ensures NoEmptyFrom(cols, 1) ==> NoEmptyFrom(r, 1)
  {
    CompressFrom(cols, rowCount, 0)
  }

  /** `_compress_columns` as written: the loop runs over `range(n)` with
      `n` the column count read once before the loop, so after `_take` has
      deleted a column the index runs past the end of the list. `None` is
      that `IndexError`. */
  function CompressAsWrittenFrom<T>(cols: seq<seq<T>>, rowCount: int, i: nat, n: nat): Option<seq<seq<T>>>
    requires i <= n
    decreases n - i
  {
    if i == n then Some(cols)
    else if i >= |cols| then None
    else
      var (taken, c) := Take(cols, rowCount - |cols[i]|, i + 1);
      CompressAsWrittenFrom(c[i := cols[i] + taken], rowCount, i + 1, n)
  }

  function CompressAsWritten<T>(cols: seq<seq<T>>, rowCount: int): Option<seq<seq<T>>> {
    CompressAsWrittenFrom(cols, rowCount, 0, |cols|)
  }

  /** The loop as written agrees with the live-column loop exactly when
      no column is deleted; otherwise it fails. */
  lemma {:induction false} CompressAsWrittenFromAgrees<T>(cols: seq<seq<T>>, rowCount: int, i: nat, n: nat)
    requires i <= |cols| <= n
    decreases n - i
    ensures var r := CompressFrom(cols, rowCount, i);
      CompressAsWrittenFrom(cols, rowCount, i, n) == if |r| == n then Some(r) else None
  {
    if i == n || i == |cols| {
    } else {
      var (taken, c) := Take(cols, rowCount - |cols[i]|, i + 1);
      CompressStep(cols, rowCount, i, taken, c);
      CompressAsWrittenFromAgrees(c[i := cols[i] + taken], rowCount, i + 1, n);
    }
  }

  /** `_compress_columns` as written returns the compressed columns when
      every column survives, and raises `IndexError` whenever one is
      deleted. */
  lemma CompressAsWrittenFails<T>(cols: seq<seq<T>>, rowCount: int)
    ensures CompressAsWritten(cols, rowCount) ==
      if |Compress(cols, rowCount)| == |cols| then Some(Compress(cols, rowCount)) else None
  {
    CompressAsWrittenFromAgrees(cols, rowCount, 0, |cols|);
  }

  /** The first compression case of the test suite, for any items in
      place of the letters: four one-item columns compressed to two rows.
      The loop as written fails on it; the live-column loop gives the
      expected two full columns. */
  lemma CompressCounterexample<T>(a: T, b: T, c: T, d: T)
    ensures Compress([[a], [b], [c], [d]], 2) == [[a, b], [c, d]]
    ensures CompressAsWritten([[a], [b], [c], [d]], 2) == None
  {
    var cols := [[a], [b], [c], [d]];
    var n1 := [[a, b], [c], [d]];
    var n2 := [[a, b], [c, d]];
    CompressExampleFirstPass(a, b, c, d);
    CompressExampleSecondPass(a, b, c, d);
    assert CompressFrom(n2, 2, 2) == n2;
    assert CompressFrom(n1, 2, 1) == CompressFrom(n2, 2, 2);
    assert CompressFrom(cols, 2, 0) == CompressFrom(n1, 2, 1);
    CompressAsWrittenFails(cols, 2);
  }

  /** Column 0 takes `b` from column 1, which is deleted. */
  lemma CompressExampleFirstPass<T>(a: T, b: T, c: T, d: T)
    ensures Take([[a], [b], [c], [d]], 2 - |[a]|, 1) == ([b], [[a], [c], [d]])
    ensures [[a], [c], [d]][0 := [a] + [b]] == [[a, b], [c], [d]]
  {
    var cols := [[a], [b], [c], [d]];
    var rest := [[a], [c], [d]];
    assert cols[..1] + cols[2..] == rest;
    assert cols[1][1..] == [];
    assert Take(rest, 0, 1) == ([], rest);
    assert [b] + [] == [b];
    assert [a] + [b] == [a, b];
  }

  /** Column 1 takes `d` from column 2, which is deleted. */
  lemma CompressExampleSecondPass<T>(a: T, b: T, c: T, d: T)
    ensures Take([[a, b], [c], [d]], 2 - |[c]|, 2) == ([d], [[a, b], [c]])
    ensures [[a, b], [c]][1 := [c] + [d]] == [[a, b], [c, d]]
  {
    var cols := [[a, b], [c], [d]];
    var rest := [[a, b], [c]];
    assert cols[..2] + cols[3..] == rest;
    assert cols[2][1..] == [];
    assert Take(rest, 0, 2) == ([], rest);
    assert [d] + [] == [d];
    assert [c] + [d] == [c, d];
  }

  /** Python's `self.columns[-1]`. */
  function Last<T>(cols: seq<seq<T>>): seq<T>
    requires |cols| > 0
  {
    cols[|cols| - 1]
  }

  /** `append_to_column(x)`: `x` goes to the end of the last column, or
      into a new column when the last one already holds `rows` items. */
  function Append<T>(t: Table<T>, x: T): (r: Table<T>)
    requires |t.columns| > 0
    ensures r.rows == t.rows
    ensures Flatten(r.columns) == Flatten(t.columns) + [x]
    ensures |r.columns| == |t.columns| + 1 <==> |Last(t.columns)| == t.rows
    ensures |r.columns| == |t.columns| <==> |Last(t.columns)| != t.rows
    ensures r.columns[..|t.columns| - 1] == t.columns[..|t.columns| - 1]
    ensures |Last(t.columns)| == t.rows ==> r.columns == t.columns + [[x]]
    ensures |Last(t.columns)| != t.rows ==> Last(r.columns) == Last(t.columns) + [x]
    ensures Valid(t) ==> Valid(r)
  {
    var cols := t.columns;
    var r :=
      if |Last(cols)| == t.rows then Table(cols + [[x]], t.rows)
      else Table(cols[|cols| - 1 := Last(cols) + [x]], t.rows);
    AppendFlattens(cols, x, r.columns);
    r
  }

  lemma AppendFlattens<T>(cols: seq<seq<T>>, x: T, out: seq<seq<T>>)
    requires |cols| > 0
    requires out == cols + [[x]] || out == cols[|cols| - 1 := Last(cols) + [x]]
    ensures Flatten(out) == Flatten(cols) + [x]
  {
    if out == cols + [[x]] {
      FlattenConcat(cols, [[x]]);
      FlattenSingle([x]);
    } else {
      ExtendLastFlattens(cols, Last(cols) + [x]);
    }
  }

  /** Replacing the last column by another changes the flattening only in
      its last part. */
  lemma ExtendLastFlattens<T>(cols: seq<seq<T>>, c: seq<T>)
    requires |cols| > 0
    ensures Flatten(cols[|cols| - 1 := c]) == Flatten(cols[..|cols| - 1]) + c
    ensures Flatten(cols) == Flatten(cols[..|cols| - 1]) + Last(cols)
  {
    var n := |cols|;
    var out := cols[n - 1 := c];
    assert out == cols[..n - 1] + [c];
    assert cols == cols[..n - 1] + [Last(cols)];
    FlattenConcat(cols[..n - 1], [c]);
    FlattenConcat(cols[..n - 1], [Last(cols)]);
    FlattenSingle(c);
    FlattenSingle(Last(cols));
  }

  /** `add_row(compress_columns)`: one more row, and with `compress` the
      columns are topped up to the new row count. */
  function AddRow<T>(t: Table<T>, compress: bool): (r: Table<T>)
    ensures r.rows == t.rows + 1
    ensures Flatten(r.columns) == Flatten(t.columns)
    ensures !compress ==> r.columns == t.columns
    ensures |r.columns| <= |t.columns| && (|t.columns| > 0 ==> |r.columns| > 0)
    ensures Valid(t) ==> Valid(r)
    ensures compress && Valid(t) ==> forall k :: 0 <= k < |r.columns| - 1 ==> |r.columns[k]| == r.rows
    ensures compress && NoEmptyFrom(t.columns, 1) ==> NoEmptyFrom(r.columns, 1)
  {
    var rows := t.rows + 1;
    if compress then Table(Compress(t.columns, rows), rows) else Table(t.columns, rows)
  }

  /** `RowIter` from column `n` on: the items at `index` of successive
      columns, stopping at the first column too short to have one (the
      `IndexError` that ends the iteration). */
  function RowFrom<T>(cols: seq<seq<T>>, index: nat, n: nat): (r: seq<T>)
    requires n <= |cols|
    decreases |cols| - n
    ensures n + |r| <= |cols|
    ensures forall c :: n <= c < n + |r| ==> index < |cols[c]| && r[c - n] == cols[c][index]
    ensures n + |r| < |cols| ==> |cols[n + |r|]| <= index
  {
    if n == |cols| || index >= |cols[n]| then []
    else
      var rest := RowFrom(cols, index, n + 1);
      [cols[n][index]] + rest
  }

  /** `RowIter(table, index)`: the items at row `index`, left to right, up
      to the first column that does not reach that row. */
  function Row<T>(t: Table<T>, index: nat): (r: seq<T>)
    ensures |r| <= |t.columns|
    ensures forall c :: 0 <= c < |r| ==> index < |t.columns[c]| && r[c] == t.columns[c][index]
    ensures |r| < |t.columns| ==> |t.columns[|r|]| <= index
  {
    RowFrom(t.columns, index, 0)
  }

  /** A row read by skipping every column too short to reach it, rather
      than stopping at the first one. */
  function RowSkipping<T>(cols: seq<seq<T>>, index: nat): seq<T> {
    if |cols| == 0 then []
    else (if index < |cols[0]| then [cols[0][index]] else []) + RowSkipping(cols[1..], index)
  }

  /** Column lengths never grow from left to right. */
  predicate NonIncreasing<T>(cols: seq<seq<T>>) {
    forall a, b :: 0 <= a < b < |cols| ==> |cols[b]| <= |cols[a]|
  }

  lemma {:induction false} SkippingNothing<T>(cols: seq<seq<T>>, index: nat)
    requires forall k :: 0 <= k < |cols| ==> |cols[k]| <= index
    ensures RowSkipping(cols, index) == []
    decreases |cols|
  {
    if |cols| > 0 {
      SkippingNothing(cols[1..], index);
    }
  }

  /** When column lengths never grow, stopping at the first short column
      and skipping every short column read the same row. */
  lemma {:induction false} RowStopsWhereSkipping<T>(cols: seq<seq<T>>, index: nat, n: nat)
    requires n <= |cols| && NonIncreasing(cols)
    ensures RowFrom(cols, index, n) == RowSkipping(cols[n..], index)
    decreases |cols| - n
  {
    if n == |cols| {
    } else if index >= |cols[n]| {
      assert cols[n..][1..] == cols[n + 1..];
      SkippingNothing(cols[n + 1..], index);
    } else {
      assert cols[n..][1..] == cols[n + 1..];
      RowStopsWhereSkipping(cols, index, n + 1);
    }
  }

  /** The `rows` property: one row view per row index. */
  function Rows<T>(t: Table<T>): (r: seq<seq<T>>)
    ensures |r| == if t.rows < 0 then 0 else t.rows
    ensures forall i :: 0 <= i < |r| ==> r[i] == Row(t, i)
  {
    seq(if t.rows < 0 then 0 else t.rows, i requires 0 <= i => Row(t, i))
  }
}

=== FILE: tail.dfy ===
/** The count operand of `tail -n` / `tail -c`: a signed number whose
    sign says which end of the file it is relative to. */
module Tail {
  import opened Maybe
  import opened Decimal

  /** `parse_n`: `+k` counts from the start (k), `-k` and a bare `k` count
      from the end (-k). The text after the sign goes through Python's
      `int()`, so `None` is its `ValueError`. */
  function ParseCount(s: string): (r: Option<int>)
    ensures |s| > 0 && s[0] == '+' && IsDigits(s[1..]) ==> r == Some(Value(s[1..]))
    ensures |s| > 0 && s[0] == '-' && IsDigits(s[1..]) ==> r == Some(-(Value(s[1..]) as int))
    ensures IsDigits(s) ==> r == Some(-(Value(s) as int))
    ensures |s| == 0 ==> r == None
  {
    if |s| > 0 && s[0] == '+' then PyInt(s[1..])
    else if |s| > 0 && s[0] == '-' then
      match PyInt(s[1..])
      case Some(v) => Some(-1 * v)
      case None => None
    else
      match PyInt(s)
      case Some(v) => Some(-1 * v)
      case None => None
  }

  /** A leading minus sign and no sign at all mean the same thing. */
  lemma MinusSameAsBare(digits: string)
    requires IsDigits(digits)
    ensures ParseCount("-" + digits) == ParseCount(digits)
    ensures ParseCount("+" + digits) == Some(-ParseCount(digits).value)
  {
    assert ("-" + digits)[1..] == digits;
    assert ("+" + digits)[1..] == digits;
  }

  /** Whatever the sign, the magnitude of the result is the value of the
      digits that follow it. */
  lemma MagnitudeIsDigitValue(s: string, sign: string, digits: string)
    requires s == sign + digits && IsDigits(digits)
    requires sign == "" || sign == "+" || sign == "-"
    ensures ParseCount(s).Some?
    ensures Abs(ParseCount(s).value) == Value(digits)
    ensures ParseCount(s).value >= 0 <==> sign == "+" || Value(digits) == 0
  {
    if sign == "" {
      assert s == digits;
    } else {
      assert s[0] == sign[0] && s[1..] == digits;
    }
  }

  function Abs(x: int): nat {
    if x < 0 then -x else x
  }
}

=== FILE: touch.dfy ===
/** The `-t` operand of `touch`: `[[CC]YY]MMDDhhmm[.SS]` (POSIX.1-2017,
    XCU `touch`), parsed to a calendar tuple. The clock read for a missing
    year is the parameter `currentYear`; the calendar validation that
    Python's `datetime` constructor performs is not modelled. */
module Touch {
  import opened Maybe
  import opened Decimal

  datatype Timestamp = Timestamp(year: int, month: int, day: int, hour: int, minute: int, second: int)

  /** Position of the first `.` in `s`, or `|s|` when there is none. */
  function FirstDot(s: string): (k: nat)
    ensures k <= |s|
    ensures forall i :: 0 <= i < k ==> s[i] != '.'
    ensures k < |s| ==> s[k] == '.'
  {
    if |s| == 0 || s[0] == '.' then 0 else 1 + FirstDot(s[1..])
  }

  /** The text before the first `.` (the whole operand when there is none). */
  function DatePart(time: string): string {
    time[..FirstDot(time)]
  }

  /** Python's clamped slice `s[i:j]`. */
  function Slice(s: string, i: nat, j: nat): (r: string)
    ensures j <= |s| && i <= j ==> r == s[i..j]
    ensures i < |s| < j ==> r == s[i..]
    ensures |r| == if i >= |s| || j <= i then 0 else if j <= |s| then j - i else |s| - i
  {
    if i >= |s| || j <= i then [] else if j <= |s| then s[i..j] else s[i..]
  }

  /** The century implied by a two-digit year when none is given:
      69..99 are 19xx, 0..68 are 20xx; any other value leaves it 0. */
  function ImpliedCentury(yy: int): int {
    if 69 <= yy <= 99 then 19 else if 0 <= yy <= 68 then 20 else 0
  }

  /** The `YYMMDDhhmm` step: `century` is 0 when no `CC` was given (or it
      was `00`). Returns the year and the remaining `MMDDhhmm` text. */
  function TenChar(d: string, century: int): Option<(int, string)>
    requires |d| == 10
  {
    match PyInt(d[..2])
    case None => None
    case Some(yy) =>
      var c := if century == 0 then ImpliedCentury(yy) else century;
      Some((yy + c * 100, d[2..]))
  }

  /** Strips `[[CC]YY]` off the date part. The year is 0 when the date
      part is neither 10 nor 12 characters long. */
  function YearAndRest(date: string): Option<(int, string)> {
    if |date| == 12 then
      match PyInt(date[..2])
      case None => None
      case Some(c) => TenChar(date[2..], c)
    else if |date| == 10 then TenChar(date, 0)
    else Some((0, date))
  }

  /** What `parse_time_decimal` computes before calling the `datetime`
      constructor, with `seconds` still the argument it passes. */
  datatype Seconds = SecondsInt(n: int) | SecondsText(text: string)

  datatype Fields = Fields(year: int, month: int, day: int, hour: int, minute: int, seconds: Seconds)

  /** The `seconds` argument: 0 without a `.`, otherwise the text after the
      first `.`, either as the source passes it or converted by `int()`. */
  function SecondsArg(time: string, secondsAsInt: bool): Option<Seconds> {
    var k := FirstDot(time);
    if k == |time| then Some(SecondsInt(0))
    else if !secondsAsInt then Some(SecondsText(time[k + 1..]))
    else match PyInt(time[k + 1..])
      case None => None
      case Some(v) => Some(SecondsInt(v))
  }

  /** Month, day, hour and minute: `int()` of the clamped slices
      `[:2]`, `[2:4]`, `[4:6]` and `[6:8]` of what is left of the date. */
  function Clock(rest: string): Option<(int, int, int, int)> {
    match (PyInt(Slice(rest, 0, 2)), PyInt(Slice(rest, 2, 4)), PyInt(Slice(rest, 4, 6)), PyInt(Slice(rest, 6, 8)))
    case (Some(mo), Some(dd), Some(hh), Some(mi)) => Some((mo, dd, hh, mi))
    case _ => None
  }

  /** The body of `parse_time_decimal` up to the constructor call; `secondsAsInt`
      chooses between the text the source passes and the integer its
      tests expect. `None` is a `ValueError` raised by `int()`. */
  function ParseFields(time: string, currentYear: int, secondsAsInt: bool): Option<Fields> {
    match YearAndRest(DatePart(time))
    case None => None
    case Some((y, rest)) =>
      var year := if y == 0 then currentYear else y;
      match Clock(rest)
      case None => None
      case Some((mo, dd, hh, mi)) =>
        match SecondsArg(time, secondsAsInt)
        case None => None
        case Some(ss) => Some(Fields(year, mo, dd, hh, mi, ss))
  }

  /** Python's `datetime.datetime(...)` argument check: the seconds must be
      an integer (a `str` is a `TypeError`). Calendar ranges are not checked. */
  function Construct(f: Fields): Option<Timestamp> {
    match f.seconds
    case SecondsInt(s) => Some(Timestamp(f.year, f.month, f.day, f.hour, f.minute, s))
    case SecondsText(_) => None
  }

  /** `parse_time_decimal` with integer seconds, as its tests expect. */
  function ParseTime(time: string, currentYear: int): (r: Option<Timestamp>)
    ensures |DatePart(time)| < 7 ==> r == None
    ensures r.Some? && FirstDot(time) == |time| ==> r.value.second == 0
    ensures r.Some? && FirstDot(time) < |time| ==> Some(r.value.second) == PyInt(time[FirstDot(time) + 1..])
  {
    match ParseFields(time, currentYear, true)
    case None => None
    case Some(f) => Construct(f)
  }

  /** `parse_time_decimal` exactly as written: `seconds` stays a `str`
      whenever the operand has a `.`. */
  function ParseTimeAsWritten(time: string, currentYear: int): Option<Timestamp> {
    match ParseFields(time, currentYear, false)
    case None => None
    case Some(f) => Construct(f)
  }

  /** A well-formed date part: 8, 10 or 12 ASCII digits. */
  predicate WellFormedDate(date: string) {
    IsDigits(date) && (|date| == 8 || |date| == 10 || |date| == 12)
  }

  /** A well-formed seconds suffix: nothing, or `.` and digits. */
  predicate WellFormedSeconds(time: string) {
    var k := FirstDot(time);
    k == |time| || IsDigits(time[k + 1..])
  }

  lemma DigitsSlice(s: string, i: nat, j: nat)
    requires IsDigits(s) && i < j <= |s|
    ensures IsDigits(s[i..j])
  {
    forall p | 0 <= p < j - i ensures IsDigit(s[i..j][p]) {
      assert s[i..j][p] == s[i + p];
    }
  }

  /** The year part of a well-formed date leaves its last eight characters. */
  lemma YearAndRestOfDigits(d: string)
    requires WellFormedDate(d)
    ensures YearAndRest(d).Some? && YearAndRest(d).value.1 == d[|d| - 8..]
  {
    if |d| == 12 {
      DigitsSlice(d, 0, 2);
      DigitsSlice(d, 2, 4);
      assert d[2..][..2] == d[2..4];
      assert d[2..][2..] == d[4..];
    } else if |d| == 10 {
      DigitsSlice(d, 0, 2);
    }
  }

  lemma ClockOfDigits(rest: string)
    requires |rest| == 8 && IsDigits(rest)
    ensures Clock(rest) == Some((Value(rest[0..2]), Value(rest[2..4]), Value(rest[4..6]), Value(rest[6..8])))
  {
    DigitsSlice(rest, 0, 2);
    DigitsSlice(rest, 2, 4);
    DigitsSlice(rest, 4, 6);
    DigitsSlice(rest, 6, 8);
  }

  /** A well-formed operand always parses, and month, day, hour and minute
      are the four two-digit fields of the last eight date characters. */
  lemma {:induction false} FieldsFromLastEight(time: string, currentYear: int)
    requires WellFormedDate(DatePart(time)) && WellFormedSeconds(time)
    ensures ParseTime(time, currentYear).Some?
    ensures var d := DatePart(time); var t := ParseTime(time, currentYear).value; var m := |d| - 8;
      t.month == Value(d[m..m + 2]) && t.day == Value(d[m + 2..m + 4])
      && t.hour == Value(d[m + 4..m + 6]) && t.minute == Value(d[m + 6..m + 8])
  {
    var d := DatePart(time);
    var m := |d| - 8;
    YearAndRestOfDigits(d);
    var rest := d[m..];
    DigitsSlice(d, m, |d|);
    assert d[m..|d|] == rest;
    ClockOfDigits(rest);
    assert rest[0..2] == d[m..m + 2];
    assert rest[2..4] == d[m + 2..m + 4];
    assert rest[4..6] == d[m + 4..m + 6];
    assert rest[6..8] == d[m + 6..m + 8];
    assert SecondsArg(time, true).Some?;
  }

  /** The year a well-formed 10- or 12-character date part denotes. */
  lemma YearOfDigits(d: string)
    requires WellFormedDate(d) && |d| >= 10
    ensures var yy := Value(d[|d| - 10..|d| - 8]);
      YearAndRest(d).Some? && YearAndRest(d).value.0 ==
        if |d| == 12 && Value(d[..2]) != 0 then 100 * Value(d[..2]) + yy else 100 * ImpliedCentury(yy) + yy
  {
    var e := d[|d| - 10..];
    DigitsSlice(d, |d| - 10, |d| - 8);
    assert e[..2] == d[|d| - 10..|d| - 8];
    if |d| == 12 {
      DigitsSlice(d, 0, 2);
      assert d[2..] == e;
    } else {
      assert d == e;
    }
  }

  /** With `CC` present and not `00`, the year is `CC * 100 + YY`. */
  lemma {:induction false} ExplicitCentury(time: string, currentYear: int)
    requires WellFormedSeconds(time)
    requires var d := DatePart(time); |d| == 12 && IsDigits(d)
    requires Value(DatePart(time)[..2]) != 0
    ensures var d := DatePart(time);
      ParseTime(time, currentYear).Some?
      && ParseTime(time, currentYear).value.year == 100 * Value(d[..2]) + Value(d[2..4])
  {
    FieldsFromLastEight(time, currentYear);
    YearOfDigits(DatePart(time));
  }

  /** Without a century (or with `00`), `YY` in 69..99 is 19YY and `YY` in
      00..68 is 20YY. */
  lemma {:induction false} ImpliedCenturyPivot(time: string, currentYear: int)
    requires WellFormedSeconds(time)
    requires var d := DatePart(time); IsDigits(d) && (|d| == 10 || (|d| == 12 && Value(d[..2]) == 0))
    ensures var d := DatePart(time); var yy := Value(d[|d| - 10..|d| - 8]);
      var t := ParseTime(time, currentYear);
      t.Some? && (69 <= yy ==> t.value.year == 1900 + yy) && (yy <= 68 ==> t.value.year == 2000 + yy)
  {
    var d := DatePart(time);
    FieldsFromLastEight(time, currentYear);
    YearOfDigits(d);
    DigitsSlice(d, |d| - 10, |d| - 8);
    TwoDigits(d[|d| - 10..|d| - 8]);
  }

  /** A date part that is not 10 or 12 characters long, or one whose
      computed year is 0, takes the current year. */
  lemma {:induction false} MissingYearIsCurrent(time: string, currentYear: int)
    requires var d := DatePart(time);
      (|d| != 10 && |d| != 12) || (YearAndRest(d).Some? && YearAndRest(d).value.0 == 0)
    ensures ParseTime(time, currentYear).Some? ==> ParseTime(time, currentYear).value.year == currentYear
  {
  }

  lemma {:induction false} FirstDotIs(s: string, k: nat)
    requires k <= |s| && (forall i :: 0 <= i < k ==> s[i] != '.') && (k < |s| ==> s[k] == '.')
    ensures FirstDot(s) == k
    decreases |s|
  {
    if |s| > 0 && s[0] != '.' {
      FirstDotIs(s[1..], k - 1);
    }
  }

  /** Rows of the source's `tests/test_touch.py`, one lemma each. */
  lemma ExampleNoYear(s: string, cy: int)
    requires s == "04200420"
    ensures ParseTime(s, cy) == Some(Timestamp(cy, 4, 20, 4, 20, 0))
  {
    FirstDotIs(s, 8);
    var d := DatePart(s);
    assert d == "04200420";
    assert d[0..2] == "04";
    assert d[2..4] == "20";
    assert d[4..6] == "04";
    assert d[6..8] == "20";
    TwoDigits("04");
    TwoDigits("20");
    FieldsFromLastEight(s, cy);
  }

  lemma ExampleSeconds(s: string, cy: int)
    requires s == "10111213.14"
    ensures ParseTime(s, cy) == Some(Timestamp(cy, 10, 11, 12, 13, 14))
  {
    SecondsOperand(s);
    SecondsDate(DatePart(s));
    TwoDigits("14");
    FieldsFromLastEight(s, cy);
  }

  lemma SecondsOperand(s: string)
    requires s == "10111213.14"
    ensures DatePart(s) == "10111213" && WellFormedSeconds(s) && s[FirstDot(s) + 1..] == "14"
  {
    FirstDotIs(s, 8);
    assert s[9..] == "14";
  }

  lemma SecondsDate(d: string)
    requires d == "10111213"
    ensures IsDigits(d) && |d| == 8
    ensures Value(d[0..2]) == 10 && Value(d[2..4]) == 11 && Value(d[4..6]) == 12 && Value(d[6..8]) == 13
  {
    assert d[0..2] == "10";
    assert d[2..4] == "11";
    assert d[4..6] == "12";
    assert d[6..8] == "13";
    TwoDigits("10");
    TwoDigits("11");
    TwoDigits("12");
    TwoDigits("13");
  }

  lemma ExamplePivot1900(s: string, cy: int)
    requires s == "9709091234"
    ensures ParseTime(s, cy) == Some(Timestamp(1997, 9, 9, 12, 34, 0))
  {
    FirstDotIs(s, 10);
    var d := DatePart(s);
    assert d == "9709091234";
    assert d[0..2] == "97";
    assert d[2..4] == "09";
    assert d[4..6] == "09";
    assert d[6..8] == "12";
    assert d[8..10] == "34";
    TwoDigits("09");
    TwoDigits("12");
    TwoDigits("34");
    TwoDigits("97");
    FieldsFromLastEight(s, cy);
    ImpliedCenturyPivot(s, cy);
  }

  lemma ExamplePivot2000(s: string, cy: int)
    requires s == "1501020420.20"
    ensures ParseTime(s, cy) == Some(Timestamp(2015, 1, 2, 4, 20, 20))
  {
    Pivot2000Operand(s);
    Pivot2000Date(DatePart(s));
    TwoDigits("20");
    FieldsFromLastEight(s, cy);
    ImpliedCenturyPivot(s, cy);
  }

  lemma Pivot2000Operand(s: string)
    requires s == "1501020420.20"
    ensures DatePart(s) == "1501020420" && WellFormedSeconds(s) && s[FirstDot(s) + 1..] == "20"
  {
    FirstDotIs(s, 10);
    assert s[11..] == "20";
  }

  lemma Pivot2000Date(d: string)
    requires d == "1501020420"
    ensures IsDigits(d) && |d| == 10
    ensures Value(d[0..2]) == 15 && Value(d[2..4]) == 1 && Value(d[4..6]) == 2
    ensures Value(d[6..8]) == 4 && Value(d[8..10]) == 20
  {
    assert d[0..2] == "15";
    assert d[2..4] == "01";
    assert d[4..6] == "02";
    assert d[6..8] == "04";
    assert d[8..10] == "20";
    TwoDigits("15");
    TwoDigits("01");
    TwoDigits("02");
    TwoDigits("04");
    TwoDigits("20");
  }

  lemma CenturyOperand(s: string)
    requires s == "240103211234.20"
    ensures DatePart(s) == "240103211234" && WellFormedSeconds(s) && s[FirstDot(s) + 1..] == "20"
  {
    FirstDotIs(s, 12);
    assert s[13..] == "20";
  }

  lemma CenturyDate(d: string)
    requires d == "240103211234"
    ensures IsDigits(d) && |d| == 12
    ensures Value(d[..2]) == 24 && Value(d[2..4]) == 1 && Value(d[4..6]) == 3
    ensures Value(d[6..8]) == 21 && Value(d[8..10]) == 12 && Value(d[10..12]) == 34
  {
    assert d[..2] == "24";
    assert d[2..4] == "01";
    assert d[4..6] == "03";
    assert d[6..8] == "21";
    assert d[8..10] == "12";
    assert d[10..12] == "34";
    TwoDigits("24");
    TwoDigits("01");
    TwoDigits("03");
    TwoDigits("21");
    TwoDigits("12");
    TwoDigits("34");
  }

  lemma ExampleCentury(s: string, cy: int)
    requires s == "240103211234.20"
    ensures ParseTime(s, cy) == Some(Timestamp(2401, 3, 21, 12, 34, 20))
  {
    CenturyOperand(s);
    CenturyDate(DatePart(s));
    TwoDigits("20");
    ExplicitCentury(s, cy);
    FieldsFromLastEight(s, cy);
  }

  /** Finding: as written, any operand with a `.SS` part fails, because the
      seconds reach the `datetime` constructor as text. Without one, the
      source and the corrected parser agree. */
  lemma {:induction false} SecondsTextRejected(time: string, currentYear: int)
    ensures FirstDot(time) < |time| ==> ParseTimeAsWritten(time, currentYear) == None
    ensures FirstDot(time) == |time| ==> ParseTimeAsWritten(time, currentYear) == ParseTime(time, currentYear)
  {
  }

  /** The seconds row of `tests/test_touch.py` that the as-written parser rejects. */
  lemma SecondsCounterexample(s: string, cy: int)
    requires s == "10111213.14"
    ensures ParseTimeAsWritten(s, cy) == None
    ensures ParseTime(s, cy) == Some(Timestamp(cy, 10, 11, 12, 13, 14))
  {
    FirstDotIs(s, 8);
    SecondsTextRejected(s, cy);
    ExampleSeconds(s, cy);
  }
}
